=== FILE: README.md ===
# Products list report: the controller logic as a Dafny model

The application is a UI5 master-detail app over a JSON list of products. An
overview page has a filter bar, a table with multi-select delete, and a
value-help dialog for price tokens. A details page views, edits, creates
and deletes one product and validates three combo boxes through the
messaging model. This project models the deterministic logic inside the
two controllers and the formatter module. Every control read becomes a
parameter: the selected combo texts, the search query, the price tokens,
the products list, the message list. Every result is a plain value.

Modules (one file each):

- `Wrappers` (`wrappers.dfy`): `Option` for `undefined` results and `Result` for a thrown error.
- `JsValues` (`js_values.dfy`): JavaScript values, truthiness, `===`, `==` against a string, `Number(s)` on integer text and `parseInt` truthiness.
- `JsStrings` (`js_strings.dfy`): `substring`, `indexOf`, `lastIndexOf`, `split("/").pop()` and `join`, each with its JavaScript edge cases (clamping, swapping, -1).
- `SeqUtil` (`seq_util.dfy`): order-preserving subsequences.
- `UiTypes` (`ui_types.dfy`): `ValueState` and the i18n bundle as a function from key to text.
- `Whitespace` (`whitespace.dfy`): the double-space rewrite of token texts.
- `FilterTree` (`filter_tree.dfy`): the filter syntax tree handed to the table binding.
- `OverviewFilters` (`overview_filters.dfy`): building that tree from the filter bar.
- `FilterSummary` (`filter_summary.dfy`): the "has values" selection and the summary texts.
- `Formatter` (`formatter.dfy`): the table formatters.
- `Products` (`products.dfy`): the product list operations of the details page.
- `Selection` (`selection.dfy`): selecting and deleting rows in the overview table, and the `/deleteButton` flag that enables Delete.
- `Validation` (`validation.dfy`): combo-box validation, the save gate and the message-target control id.

Each operation has a partner: an independent description, an inverse, or an
invariant. A lemma ties the two together, for example:

- the double-space rewrite against a run-parity description;
- upsert against delete;
- the message list after any sequence of change events against the set of combo boxes whose latest change was invalid;
- the target-id extraction against the id it was built from.

## Model

| member | source | states |
|---|---|---|
| Whitespace.ReplaceDoubleSpaces | webapp/controller/ProductsOverview.controller.js:717-720 | replacing every pair of ASCII spaces by a space and U+00A0 keeps the length of the text |
| Whitespace.ReplaceDoubleSpacesShape | webapp/controller/ProductsOverview.controller.js:717-720 | each character is kept, or is an ASCII space turned into U+00A0; no two ASCII spaces stay adjacent |
| Whitespace.ReplaceDoubleSpacesByRunParity | webapp/controller/ProductsOverview.controller.js:717-720 | inside every run of ASCII spaces, exactly the 2nd, 4th, ... spaces become U+00A0 (left-to-right, non-overlapping matching) |
| Whitespace.ReplaceDoubleSpacesKeepsNormalText | webapp/controller/ProductsOverview.controller.js:717-720 | text without a double space comes back unchanged |
| Whitespace.ReplaceDoubleSpacesIdempotent | webapp/controller/ProductsOverview.controller.js:717-720 | rewriting twice equals rewriting once |
| Whitespace.NormaliseTokenText | webapp/controller/ProductsOverview.controller.js:707-721 | a non-string is returned unchanged; a string keeps its length, loses every double space, and is unchanged if it had none |
| Whitespace.NormaliseTokenTexts | webapp/controller/ProductsOverview.controller.js:211-226 | every token text of the dialog is rewritten, in token order, one result per token |
| OverviewFilters.ComboBoxFilters | webapp/controller/ProductsOverview.controller.js:901-922 | nothing when no item is selected; otherwise one `Contains` leaf on the binding path per selected text, in the order `getSelectedItems` returns them (the combo box's item order) |
| OverviewFilters.SearchFilters | webapp/controller/ProductsOverview.controller.js:990-1029 | nothing for an empty query; otherwise Name, Category/Name and Supplier/Name `Contains` first, then exactly the Rating `EQ` and Price `EQ` leaves, in that order, when `parseInt(query)` is truthy; every leaf compares with the query |
| OverviewFilters.ZeroQueryGetsTextFiltersOnly | webapp/controller/ProductsOverview.controller.js:1026-1028 | the query "0" gets only the three text conditions |
| OverviewFilters.NumericQueryAlsoSearchesNumbers | webapp/controller/ProductsOverview.controller.js:1026-1028 | the decimal text of any positive number also gets the rating and price conditions |
| OverviewFilters.TokenFilterCount | webapp/controller/ProductsOverview.controller.js:936-945 | every token lands in exactly one of the with-operation and without-operation lists |
| OverviewFilters.TokenFiltersKeepOrder | webapp/controller/ProductsOverview.controller.js:936-945 | both lists keep token order: the conditions for `a + b` are those for `a` followed by those for `b` |
| OverviewFilters.AllPriceLeaves | webapp/controller/ProductsOverview.controller.js:954-972 | every token condition is a leaf on Price; the plain ones use `EQ` |
| OverviewFilters.InputFilters | webapp/controller/ProductsOverview.controller.js:930-982 | nothing without tokens; otherwise one OR group with one Price leaf per token, operation tokens first, then plain tokens |
| OverviewFilters.ConfirmFilters | webapp/controller/ProductsOverview.controller.js:855-893 | one AND group; undefined parts dropped; the defined parts at their positions in the order category, status, supplier, search, price input; empty when every part is undefined |
| OverviewFilters.ApplyFilterBarChildren | webapp/controller/ProductsOverview.controller.js:855-893 | the AND group has one child per filter-bar part that holds something |
| OverviewFilters.ValueHelpSearchFilter | webapp/controller/ProductsOverview.controller.js:463-508 | an AND group whose children before the last are exactly the field conditions (`FieldFilters`, one `Contains` leaf per non-empty field, see `FieldFiltersMatchFields`), always closed by the OR group of Price `EQ` and Name `Contains` on the basic query |
| OverviewFilters.FieldFiltersMatchFields | webapp/controller/ProductsOverview.controller.js:467-482 | the field conditions are one `Contains` leaf per field with a non-empty value, on that field's name and value, in field order, and no others |
| FilterSummary.FiltersWithValues | webapp/controller/ProductsOverview.controller.js:303-365 | an order-preserving subsequence of the items holding exactly the items whose control has values |
| FilterSummary.SummaryText | webapp/controller/ProductsOverview.controller.js:374-395 | `zeroFilters` for none; `multiFiltersActive` and the join for one to five; `oneFilterActive`, the join of all names and "..." beyond five |
| FilterSummary.SummaryTextAppendsFilter | webapp/controller/ProductsOverview.controller.js:391-393 | up to five filters, one more filter appends ", " and its name |
| FilterSummary.SummaryTextListsAllFilters | webapp/controller/ProductsOverview.controller.js:382-388 | with six filters, the text names all six before "..." |
| FilterSummary.SummaryTextShowsMoreThanFive | webapp/controller/ProductsOverview.controller.js:382-388 | beyond five filters, the text is longer than the text naming the first five |
| FilterSummary.SummaryTextFirstFive | webapp/controller/ProductsOverview.controller.js:374-395 | the corrected summary: the same text up to five filters, the first five names and "..." beyond |
| FilterSummary.SummaryTextFirstFiveShowsAtMostFive | webapp/controller/ProductsOverview.controller.js:382-388 | the corrected text depends only on the first five names |
| FilterSummary.SummaryTextExpanded | webapp/controller/ProductsOverview.controller.js:405-435 | `zeroFilters`; otherwise `oneFilterActive` for one filter and `multiFiltersActive` for more, followed by `filtersHidden` exactly when a filter is hidden |
| FilterSummary.SummaryTextExpandedIgnoresNames | webapp/controller/ProductsOverview.controller.js:405-435 | the expanded text depends only on none/one/several filters and on whether any is hidden |
| Formatter.FormatAvailabilityState | webapp/utils/formatter.js:28-30 | `Error` exactly for a truthy value, `Success` exactly for a falsy one |
| Formatter.FormatAvailabilityIcon | webapp/utils/formatter.js:39-41 | the error icon exactly for a truthy value, the check mark exactly for a falsy one |
| Formatter.AvailabilityTextKey | webapp/utils/formatter.js:17-19 | `unavailableStatusText` exactly for a truthy value, `availableStatusText` exactly for a falsy one |
| Formatter.FormatAvailabilityText | webapp/utils/formatter.js:17-19 | the text of the unavailable key for a truthy value, of the available key for a falsy one |
| Formatter.AvailabilityFormattersAgree | webapp/utils/formatter.js:17-41 | the error state, the error icon and the unavailable text always go together, and so do their success counterparts |
| Formatter.FormatDiscontinuedDate | webapp/utils/formatter.js:50-52 | `discontinuedStatusText` exactly for a falsy value; the year of the date exactly for a truthy one |
| Formatter.FilterItemsToText | webapp/utils/formatter.js:61-79 | the same case split as the overview summary: none, one to five, more than five with "..." |
| Formatter.FilterItemsToTextMatchesSummary | webapp/utils/formatter.js:61-79 | the formatter and the overview controller give the same text for the same filters |
| JsValues.StrictEqualsIsPartialEquivalence | webapp/controller/ProductDetails.controller.js:94 | `===` is symmetric and transitive and reflexive on everything except NaN |
| JsValues.LooseEqualsOwnRendering | webapp/controller/ProductDetails.controller.js:277 | a numeric or string ID `==` its own decimal text, so a route built from an ID finds it |
| JsValues.ParseIntTruthyOfDecimalString | webapp/controller/ProductsOverview.controller.js:1026 | `parseInt` of a number's decimal text is truthy exactly when the number is not 0 |
| JsStrings.LastSegment | webapp/controller/ProductsOverview.controller.js:762-768 | `split("/").pop()` is the '/'-free suffix of the path, preceded by '/' when shorter than the path |
| Products.FindIndexById | webapp/controller/ProductDetails.controller.js:94 | -1 or the first index whose ID is `===` the given one; no earlier index matches |
| Products.UpsertProduct | webapp/controller/ProductDetails.controller.js:90-101 | the first product with the same ID is replaced and all others stay; without one the product is appended; afterwards the product is found by its ID |
| Products.UpsertProductIdempotent | webapp/controller/ProductDetails.controller.js:90-101 | for a product whose ID is not NaN, saving it twice is saving it once |
| Products.DeleteProductById | webapp/controller/ProductDetails.controller.js:151-162 | the first product with the ID is removed and the rest keep their order; without a match nothing changes |
| Products.DeleteUndoesAppend | webapp/controller/ProductDetails.controller.js:151-162 | deleting a product that was just appended under a new ID gives the list back |
| Products.DefaultProduct | webapp/controller/ProductDetails.controller.js:290-301 | the new product has the given ID, empty texts, empty price and rating, and no composition rows |
| Products.CreatePageProduct | webapp/controller/ProductDetails.controller.js:217-224 | the create page's product is the default one with ID = number of products + 1 |
| Products.CountPlusOneIdCollides | webapp/controller/ProductDetails.controller.js:222-223 | after product 1 of three is deleted, the offered ID 3 is still taken and saving overwrites product 3 |
| Products.CreatePageProductFresh | webapp/controller/ProductDetails.controller.js:222-223 | the corrected create page offers an ID that no product holds |
| Products.SavingFreshProductAppends | webapp/controller/ProductDetails.controller.js:90-101 | saving from the corrected create page always appends and keeps every product |
| Products.AddCompositionRow | webapp/controller/ProductDetails.controller.js:199-205 | exactly one `{Name: "", Percent: "0"}` row is appended; earlier rows and every other field stay |
| Products.SelectProductForRoute | webapp/controller/ProductDetails.controller.js:272-281 | the first product whose ID `==` the route id; failure (the JSON round trip throws) exactly when none matches |
| Products.WriteBackUnchangedCopy | webapp/controller/ProductDetails.controller.js:272-281 | opening a product and saving it unedited leaves the list as it was |
| Products.WriteBackEditedCopy | webapp/controller/ProductDetails.controller.js:272-281 | saving a copy of the opened product, edited in any field but its ID, replaces exactly the opened product |
| Products.RouteOfNumericIdOpensIt | webapp/controller/ProductDetails.controller.js:277 | the route built from a product's numeric ID opens a product |
| Selection.DeleteButtonEnabled | webapp/controller/ProductsOverview.controller.js:123-129 | the delete button is enabled exactly when a row is selected |
| Selection.ConfirmationText | webapp/controller/ProductsOverview.controller.js:833-848 | the singular text for one row, the plural text for several, and a failure (reading `selectedItems[0]`) for none |
| Selection.InitialOverview | webapp/controller/ProductsOverview.controller.js:81 | the `/deleteButton` flag starts false with no row selected |
| Selection.ChangeSelection | webapp/controller/ProductsOverview.controller.js:123-129 | a user's selection change replaces the selection and sets the flag exactly when a row is selected; the products stay |
| Selection.PressDelete | webapp/controller/ProductsOverview.controller.js:797-800 | no press while the flag is false; a press yields exactly `ConfirmationText` of the current selection, which fails exactly when nothing is selected |
| Selection.ConfirmDeleteAsWritten | webapp/controller/ProductsOverview.controller.js:756-789 | confirming with rows selected leaves the products as the as-written splice loop (`DeleteSelectedAsWritten`) leaves them and empties the selection, but leaves the flag as it was; with nothing selected nothing changes |
| Selection.StaleFlagAfterDelete | webapp/controller/ProductsOverview.controller.js:787 | after selecting rows and confirming their deletion, the button is still enabled with nothing selected, and pressing it fails |
| Selection.ConfirmDelete | webapp/controller/ProductsOverview.controller.js:820-823 | the corrected confirm step removes exactly the selected rows and clears both the selection and the flag |
| Selection.ReplayKeepsFlagHonest | webapp/controller/ProductsOverview.controller.js:123-129 | with the corrected confirm step, after any run of selection changes and deletions the flag is true exactly when a row is selected |
| Selection.EnabledButtonBuildsConfirmation | webapp/controller/ProductsOverview.controller.js:797-800 | with the corrected confirm step, after any run of events Delete can be pressed exactly when a row is selected, and a press always builds the confirmation text for the current selection |
| Selection.RowIndexOfRowPath | webapp/controller/ProductsOverview.controller.js:762-768 | the index read back from row n's binding path is n |
| Selection.RowIndices | webapp/controller/ProductsOverview.controller.js:762-768 | one index per selected row, in the order `getSelectedItems` returns them (the table's item order) |
| Selection.SpliceAt | webapp/controller/ProductsOverview.controller.js:771-783 | an in-range index removes exactly that element; any other index changes nothing |
| Selection.SpliceEach | webapp/controller/ProductsOverview.controller.js:770-784 | the sequential splices remove at most one element each and nothing new appears |
| Selection.DeleteSelectedAsWritten | webapp/controller/ProductsOverview.controller.js:756-789 | no selection leaves the list unchanged; otherwise it shrinks by at most the number of selected rows and only loses elements |
| Selection.DeleteSelectedRemovesWrongRows | webapp/controller/ProductsOverview.controller.js:770-784 | selecting rows 0 and 1 of three deletes rows 0 and 2 as written, where rows 0 and 1 should go |
| Selection.KeptRowsMeaning | webapp/controller/ProductsOverview.controller.js:756-789 | removing a set of rows at once keeps an order-preserving subsequence, one row fewer per selected index, and every unselected row at its own index less the number of selected indices below it |
| Selection.KeptRowsPosition | webapp/controller/ProductsOverview.controller.js:756-789 | an unselected row moves down by exactly the number of selected rows before it |
| Selection.DeleteSelectedProducts | webapp/controller/ProductsOverview.controller.js:756-789 | the corrected deletion removes exactly the selected rows and keeps every other row in order, each at its index less the number of selected rows before it |
| Selection.DescendingSelectionDeletesSelected | webapp/controller/ProductsOverview.controller.js:770-784 | when the rows are selected bottom-up, the as-written and the corrected deletion agree |
| Validation.ComboInvalidIffEmpty | webapp/controller/ProductDetails.controller.js:387 | `!key && value \|\| value == ""` holds exactly when the key or the value is empty |
| Validation.WithoutTarget | webapp/controller/ProductDetails.controller.js:379-385 | removing a control's messages keeps an order-preserving subsequence with every other message and none for that control |
| Validation.CountForWithoutTarget | webapp/controller/ProductDetails.controller.js:379-385 | after the removal the control has no messages and every other control has as many as before |
| Validation.HandleChange | webapp/controller/ProductDetails.controller.js:373-404 | other controls' messages stay in order; the control has one `enterValue` error exactly when invalid; `Error` state exactly when invalid, `None` otherwise; nothing else on the combo changes |
| Validation.HandleChangeIdempotent | webapp/controller/ProductDetails.controller.js:373-404 | a second change event on the same combo box changes nothing |
| Validation.HandleChangeKeepsOtherCounts | webapp/controller/ProductDetails.controller.js:379-385 | a change event never alters the message count of another control |
| Validation.ReplayTracksFlagged | webapp/controller/ProductDetails.controller.js:373-404 | from an empty list, each control has one message when its latest change was invalid and none otherwise |
| Validation.ResetForm | webapp/controller/ProductDetails.controller.js:233-241 | all messages removed, the three combo boxes in state `None`, nothing else changed |
| Validation.CreateProduct | webapp/controller/ProductDetails.controller.js:136-143 | the product is written back exactly when the message list is empty; otherwise the error dialog opens |
| Validation.InvalidComboBlocksSave | webapp/controller/ProductDetails.controller.js:136-143 | a combo box left invalid blocks saving |
| Validation.ResetFormAllowsSave | webapp/controller/ProductDetails.controller.js:233-241 | right after a reset, saving goes through |
| Validation.SaveAfterChangesIffNoneFlagged | webapp/controller/ProductDetails.controller.js:136-143 | after a reset and any change events, saving goes through exactly when no combo box's latest change was invalid |
| Validation.MessageTargetControlId | webapp/controller/ProductDetails.controller.js:323-333 | with "--": the text after the last "--" up to the next '/' or the end, free of '/' and "--"; without "--": the first character is dropped, and a leading '/' gives "/" |
| Validation.ControlIdRoundTrip | webapp/controller/ProductDetails.controller.js:323-333 | a view-prefixed control id without '/' or '-' in its local part is extracted back from its message target |

## Left out

- UI plumbing is left out: fragments, dialogs, popovers, `getTableAsync`, column configuration, the `setTimeout` focus, `navTo`, `refresh` and `removeSelections`. Each is a side effect on framework controls.
- The whole of `ValueHelpController.js` is left out. It is dialog and table configuration.
- Variant management (`_checkCurrentVariant`, `_updateItems`, `_createNewItem`, `onSave`) is left out. It is a thin wrapper over the VariantManagement control and uses `Date.now()` keys.
- `_applyData`, `onFilterChange`, `onSelectionChange`, `onAfterVariantLoad` and `_updateLabelsAndTable` are left out. They copy values between framework controls.
- i18n is a function of the key alone. The base controller drops the argument array, so counts and names never reach a text.
- `Number(x)` in the price conditions is kept symbolic (`NumberOf`). Floating point is not modelled.
- `new Date(v).getFullYear()` is kept symbolic (`YearOf`). Dates are not modelled.
- Filter evaluation on the backend is not modelled. Filters are a syntax tree.
- `new Filter(filterInstance)` in `onPressConfirmFilters` is taken to keep the instance as it is.
- JsValues.StringToInteger: reads only blank text and optionally signed decimal integers. Fractions, exponents, hexadecimal and `Infinity` are `None`, because a row binding path and a route id carry only integer text.
- Selection.RowIndex: a path segment such as "1.5" passes the range check in JavaScript and `splice` truncates it. Here it selects no row, because binding paths of the table only hold integer indices.
- JsValues.LooseEqualsString: an object compared with `==` equals no string, because its primitive conversion is framework code.
- FilterSummary.SummaryText: the filters are given by the labels that the filter bar's `retrieveFiltersWithValues` returns (ProductsOverview.controller.js:375-376). The filter bar gets its items from `_getFiltersWithValues`, which is registered as a callback at lines 86-88. Which of those items the framework keeps (only those visible in the bar) is framework code and is not modelled.
- The message list holds only the target and the text of a message. Type and processor are the same for every message this page adds; id and controlId equal the target.
- `onPressItem` reads the message from the model by the numeric part of its binding path. Only the extraction of the control id from the target is modelled.
- Products.SelectProductForRoute: `JSON.parse(JSON.stringify(item))` is modelled as the item itself. Values are immutable here, so the deep copy and the original cannot diverge until the copy is written back.
- Validation.HandleChange: a message's target is taken to be the `target` it was created with (`handleChange` adds each message with a single target). The `oMessage.target` read at ProductDetails.controller.js:380 is taken to return that target, while `onPressItem` at line 323 reads `aTargets[0]`; the framework accessor behind these two reads is not modelled.
- OverviewFilters.InputFilters: the operation of a range token is taken to name a member of `FilterOperator`. The lookup `FilterOperator[sSelectedItem.operation]` at ProductsOverview.controller.js:959 with an unknown name, which would give `undefined`, is not modelled.
- Routing between the create, update and display routes (`isCreatePage` and the pattern-matched handlers) is left out, apart from the product each one sets up.

## Findings

| source | as written | input that shows it | evidently intended | confidence | as-written member | corrected member |
|---|---|---|---|---|---|---|
| webapp/controller/ProductsOverview.controller.js:770-784 | the selected indices are spliced one after another in the order `getSelectedItems` returns them (the table's item order), so every splice after the first sees shifted indices | products [1, 2, 3] with rows 0 and 1 selected leave [2]; row 2 is deleted instead of row 1 | remove exactly the selected rows, leaving [3] | high, proved on the model, not executed | Selection.DeleteSelectedRemovesWrongRows | Selection.DeleteSelectedProducts |
| webapp/controller/ProductDetails.controller.js:222-223 | a new product gets ID = number of products + 1 | products with IDs 2 and 3 (after ID 1 was deleted): the create page offers ID 3, and saving overwrites product 3 | a new product gets an ID no product holds, so saving appends | high, proved on the model, not executed | Products.CountPlusOneIdCollides | Products.CreatePageProductFresh |
| webapp/controller/ProductsOverview.controller.js:382-388 | `join(", ", 5)` ignores its second argument, so every name is listed before "..." | six filters "a" to "f" give the `oneFilterActive` text followed by "a, b, c, d, e, f..." | list the first five names followed by "..." | medium, proved on the model, not executed | FilterSummary.SummaryTextListsAllFilters | FilterSummary.SummaryTextFirstFive |
| webapp/controller/ProductsOverview.controller.js:787 | `_deleteSelectedProducts` clears the selection with `removeSelections(true)`, which fires no `selectionChange`, so `/deleteButton` stays true | select one row, confirm its deletion, press Delete again: `_buildConfirmationText([])` reads `selectedItems[0]` and throws | the flag is cleared with the selection, so Delete is enabled exactly when a row is selected | medium (rests on `removeSelections` firing no event, and on the Delete button's `enabled` being bound to `/deleteButton` in the overview view, which is not part of this model), proved on the model, not executed | Selection.StaleFlagAfterDelete | Selection.ConfirmDelete |

=== FILE: filter_summary.dfy ===
/** Which filter-bar fields count as "having values", and the summary text
    shown above the products table (ProductsOverview.controller.js:
    `_getFiltersWithValues`, `_hasValues`, `_hasSelectedKeys`, `_hasTokens`,
    `_getFormattedSummaryText`, `_getFormattedSummaryTextExpanded`). */
module FilterSummary {
  import opened JsStrings
  import opened UiTypes
  import opened SeqUtil

  /** The control behind a filter-bar field, reduced to what `_hasValues`
      reads from it. */
  datatype Control =
    | MultiComboBox(selectedKeys: seq<string>)
    | MultiInput(tokenTexts: seq<string>)
    | SearchField(value: string)
    | OtherControl(kind: string)

  datatype FilterGroupItem = FilterGroupItem(name: string, control: Control)

  /** `_hasValues`: a multi-combo box with selected keys, a multi-input with
      tokens, or a search field with a non-empty value. Every other kind of
      control never has values. */
  predicate HasValues(c: Control) {
    match c
    case MultiComboBox(keys) => |keys| > 0
    case MultiInput(tokens) => |tokens| > 0
    case SearchField(value) => |value| > 0
    case OtherControl(_) => false
  }

  /** Number of fields that have values. */
  function CountWithValues(items: seq<FilterGroupItem>): nat {
    if |items| == 0 then 0
    else CountWithValues(items[..|items| - 1]) + (if HasValues(items[|items| - 1].control) then 1 else 0)
  }

  /** `_getFiltersWithValues`: the fields that have values, in filter-bar
      order. The result is a subsequence of the fields, holds only fields
      with values, and holds all of them. */
  method FiltersWithValues(items: seq<FilterGroupItem>) returns (r: seq<FilterGroupItem>)
    ensures IsSubsequence(r, items)
    ensures forall k :: 0 <= k < |r| ==> HasValues(r[k].control)
    ensures |r| == CountWithValues(items)
    ensures forall x :: x in items && HasValues(x.control) ==> x in r
  {
    r := [];
    var i := 0;
    while i < |items|
      invariant 0 <= i <= |items|
      invariant IsSubsequence(r, items[..i])
      invariant forall k :: 0 <= k < |r| ==> HasValues(r[k].control)
      invariant |r| == CountWithValues(items[..i])
      invariant forall x :: x in items[..i] && HasValues(x.control) ==> x in r
    {
      var item := items[i];
      assert items[..i + 1][..i] == items[..i];
      if HasValues(item.control) {
        r := r + [item];
      }
      i := i + 1;
    }
    assert items[..i] == items;
  }

  /** `_getFormattedSummaryText` as written: no filters gives the
      `zeroFilters` text; more than five give the `oneFilterActive` text, all
      names joined by ", " (the `5` passed to `join` is ignored) and "...";
      one to five give the `multiFiltersActive` text and the names. The
      contract only spells out the three cases; what the text means is stated
      by the lemmas below (`SummaryTextAppendsFilter`,
      `SummaryTextListsAllFilters`, `SummaryTextFirstFive`) and by
      `Formatter.FilterItemsToTextMatchesSummary`. */
  function SummaryText(i18n: I18n, filters: seq<string>): (r: string)
    ensures |filters| == 0 ==> r == i18n("zeroFilters")
    ensures 1 <= |filters| <= 5 ==> r == i18n("multiFiltersActive") + Join(filters, ", ")
    ensures |filters| > 5 ==> r == i18n("oneFilterActive") + Join(filters, ", ") + "..."
  {
    if |filters| == 0 then i18n("zeroFilters")
    else if |filters| > 5 then i18n("oneFilterActive") + Join(filters, ", ") + "..."
    else i18n("multiFiltersActive") + Join(filters, ", ")
  }

  /** Up to five filters the names are listed in filter-bar order: one more
      filter appends ", " and its name to the text. */
  lemma SummaryTextAppendsFilter(i18n: I18n, filters: seq<string>, name: string)
    requires 1 <= |filters| < 5
    ensures SummaryText(i18n, filters + [name]) == SummaryText(i18n, filters) + ", " + name
  {
    JoinSnoc(filters, name, ", ");
  }

  /** With six filters, the as-written text names all six before the
      "...": the sixth name is shown. */
  lemma SummaryTextListsAllFilters(i18n: I18n)
    ensures SummaryText(i18n, ["a", "b", "c", "d", "e", "f"])
            == i18n("oneFilterActive") + "a, b, c, d, e, f..."
  {
    JoinOfSixLetters();
  }

  lemma JoinOfSixLetters()
    ensures Join(["a", "b", "c", "d", "e", "f"], ", ") == "a, b, c, d, e, f"
  {
    JoinOfSix("a", "b", "c", "d", "e", "f", ", ");
  }

  lemma JoinOfSix(a: string, b: string, c: string, d: string, e: string, f: string, sep: string)
    ensures Join([a, b, c, d, e, f], sep) == a + sep + b + sep + c + sep + d + sep + e + sep + f
  {
    var ef := Join([e, f], sep);
    JoinCons(e, [f], sep);
    JoinCons(d, [e, f], sep);
    JoinCons(c, [d, e, f], sep);
    JoinCons(b, [c, d, e, f], sep);
    JoinCons(a, [b, c, d, e, f], sep);
    assert ef == e + sep + f;
  }

  /** Joining an item in front of a non-empty list puts the separator
      between the item and the rest. */
  lemma JoinCons(x: string, rest: seq<string>, sep: string)
    requires |rest| > 0
    ensures Join([x] + rest, sep) == x + sep + Join(rest, sep)
  {
    assert ([x] + rest)[1..] == rest;
  }

  /** Past five filters, the as-written text always differs from the
      intended one: it is longer by the names after the fifth. */
  lemma SummaryTextShowsMoreThanFive(i18n: I18n, filters: seq<string>)
    requires |filters| > 5
    ensures |SummaryText(i18n, filters)| > |SummaryTextFirstFive(i18n, filters)|
  {
    JoinPrefixShorter(filters, 5, ", ");
  }

  /** Joining a proper prefix of the items gives a shorter text. */
  lemma {:induction false} JoinPrefixShorter(items: seq<string>, n: nat, sep: string)
    requires 1 <= n < |items| && |sep| > 0
    ensures |Join(items[..n], sep)| < |Join(items, sep)|
    decreases |items| - n
  {
    var init := items[..|items| - 1];
    JoinSnoc(init, items[|items| - 1], sep);
    assert init + [items[|items| - 1]] == items;
    if n < |items| - 1 {
      JoinPrefixShorter(init, n, sep);
      assert init[..n] == items[..n];
    } else {
      assert init == items[..n];
    }
  }

  /** The summary with the evident intent of `join(", ", 5)` + "...":
      beyond five filters only the first five names are listed. */
  function SummaryTextFirstFive(i18n: I18n, filters: seq<string>): (r: string)
    ensures |filters| <= 5 ==> r == SummaryText(i18n, filters)
    ensures |filters| > 5 ==> r == i18n("oneFilterActive") + Join(filters[..5], ", ") + "..."
  {
    if |filters| > 5 then i18n("oneFilterActive") + Join(filters[..5], ", ") + "..."
    else SummaryText(i18n, filters)
  }

  /** Past five filters, the corrected text depends only on the first five
      names: the names after them are never shown. */
  lemma SummaryTextFirstFiveShowsAtMostFive(i18n: I18n, a: seq<string>, b: seq<string>)
    requires |a| > 5 && |b| > 5 && a[..5] == b[..5]
    ensures SummaryTextFirstFive(i18n, a) == SummaryTextFirstFive(i18n, b)
  {
  }

  /** `_getFormattedSummaryTextExpanded`: no filters gives `zeroFilters`;
      otherwise `oneFilterActive` for exactly one filter and
      `multiFiltersActive` for more, followed by `filtersHidden` exactly when
      some filter with values is not visible. */
  function SummaryTextExpanded(i18n: I18n, filters: seq<string>, hidden: seq<string>): (r: string)
    ensures |filters| == 0 ==> r == i18n("zeroFilters")
    ensures |filters| == 1 && |hidden| == 0 ==> r == i18n("oneFilterActive")
    ensures |filters| == 1 && |hidden| > 0 ==> r == i18n("oneFilterActive") + i18n("filtersHidden")
    ensures |filters| > 1 && |hidden| == 0 ==> r == i18n("multiFiltersActive")
    ensures |filters| > 1 && |hidden| > 0 ==> r == i18n("multiFiltersActive") + i18n("filtersHidden")
  {
    if |filters| == 0 then i18n("zeroFilters")
    else
      var head := if |filters| == 1 then i18n("oneFilterActive") else i18n("multiFiltersActive");
      if |hidden| > 0 then head + i18n("filtersHidden") else head
  }

  /** The expanded text never names a filter: it depends on how many filters
      have values (none, one, several) and on whether any is hidden, not on
      which ones. */
  lemma SummaryTextExpandedIgnoresNames(i18n: I18n, a: seq<string>, b: seq<string>, ha: seq<string>, hb: seq<string>)
    requires (|a| == 0) == (|b| == 0) && (|a| == 1) == (|b| == 1)
    requires (|ha| == 0) == (|hb| == 0)
    ensures SummaryTextExpanded(i18n, a, ha) == SummaryTextExpanded(i18n, b, hb)
  {
  }
}

=== FILE: filter_tree.dfy ===
/** The filter syntax tree the products overview hands to the table binding
    (`sap.ui.model.Filter`). Only the tree is modelled; how the backend
    evaluates `Contains` or `EQ` is not. */
module FilterTree {
  import opened Wrappers
  import opened JsValues

  /** `sap.ui.model.FilterOperator`. */
  datatype Operator =
    | EQ | NE | LT | LE | GT | GE | BT | NB
    | Contains | NotContains | StartsWith | NotStartsWith | EndsWith | NotEndsWith

  /** A comparison value: a string as given, or `Number(v)` left unevaluated. */
  datatype Operand = Text(s: string) | NumberOf(v: JsValue)

  /** A single condition on a binding path, or a group of filters joined by
      AND (`and == true`) or OR. */
  datatype Filter =
    | Leaf(path: string, op: Operator, value1: Operand, value2: Option<Operand>)
    | Group(filters: seq<Filter>, and: bool)

  /** `new Filter(aFilters)`: an array of filters becomes an OR group. */
  function OrGroup(fs: seq<Filter>): (r: Filter)
    ensures r.Group? && !r.and && r.filters == fs
  {
    Group(fs, false)
  }
}

=== FILE: formatter.dfy ===
/** The view formatters of the products table (utils/formatter.js). Each
    maps the JavaScript truthiness of a product's discontinued date to what
    the table shows. */
module Formatter {
  import opened JsValues
  import opened JsStrings
  import opened UiTypes
  import FilterSummary

  const ErrorIcon: string := "sap-icon://error"
  const SuccessIcon: string := "sap-icon://sys-enter-2"

  /** `formatAvailabilityState`: `Error` for a truthy value, `Success` for a
      falsy one. */
  function FormatAvailabilityState(v: JsValue): (r: ValueState)
    ensures r == ValueState.Error <==> Truthy(v)
    ensures r == ValueState.Success <==> !Truthy(v)
  {
    if Truthy(v) then ValueState.Error else ValueState.Success
  }

  /** `formatAvailabilityIcon`: the error icon for a truthy value, the
      check-mark icon for a falsy one. */
  function FormatAvailabilityIcon(v: JsValue): (r: string)
    ensures r == ErrorIcon <==> Truthy(v)
    ensures r == SuccessIcon <==> !Truthy(v)
  {
    if Truthy(v) then ErrorIcon else SuccessIcon
  }

  /** The i18n key `formatAvailabilityText` looks up. */
  function AvailabilityTextKey(v: JsValue): (r: string)
    ensures r == "unavailableStatusText" <==> Truthy(v)
    ensures r == "availableStatusText" <==> !Truthy(v)
  {
    if Truthy(v) then "unavailableStatusText" else "availableStatusText"
  }

  /** `formatAvailabilityText`: the `unavailableStatusText` text for a truthy
      value, `availableStatusText` for a falsy one. */
  function FormatAvailabilityText(i18n: I18n, v: JsValue): (r: string)
    ensures Truthy(v) ==> r == i18n("unavailableStatusText")
    ensures !Truthy(v) ==> r == i18n("availableStatusText")
  {
    i18n(AvailabilityTextKey(v))
  }

  /** The three availability formatters always agree: the error state goes
      with the error icon and the "unavailable" text, the success state with
      the check mark and the "available" text. */
  lemma AvailabilityFormattersAgree(v: JsValue)
    ensures FormatAvailabilityState(v) == ValueState.Error <==> FormatAvailabilityIcon(v) == ErrorIcon
    ensures FormatAvailabilityIcon(v) == ErrorIcon <==> AvailabilityTextKey(v) == "unavailableStatusText"
    ensures FormatAvailabilityState(v) == ValueState.Success <==> FormatAvailabilityIcon(v) == SuccessIcon
    ensures FormatAvailabilityIcon(v) == SuccessIcon <==> AvailabilityTextKey(v) == "availableStatusText"
  {
  }

  /** What the discontinued-date column shows: the year of the date (left
      unevaluated: `new Date(v).getFullYear()`), or a text. */
  datatype DiscontinuedDisplay = YearOf(date: JsValue) | Label(text: string)

  /** `formatDiscontinuedDate`: a falsy value shows the
      `discontinuedStatusText` text; a truthy one shows its year. */
  function FormatDiscontinuedDate(i18n: I18n, v: JsValue): (r: DiscontinuedDisplay)
    ensures !Truthy(v) <==> r == Label(i18n("discontinuedStatusText"))
    ensures Truthy(v) <==> r == YearOf(v)
  {
    if Truthy(v) then YearOf(v) else Label(i18n("discontinuedStatusText"))
  }

  /** `filterItemsToText`: no filters gives the `zeroFilters` text; one to
      five give the `multiFiltersActive` text and the names joined by ", ";
      more give the `oneFilterActive` text, all names joined and "...". */
  function FilterItemsToText(i18n: I18n, filters: seq<string>): (r: string)
    ensures |filters| == 0 ==> r == i18n("zeroFilters")
    ensures 1 <= |filters| <= 5 ==> r == i18n("multiFiltersActive") + Join(filters, ", ")
    ensures |filters| > 5 ==> r == i18n("oneFilterActive") + Join(filters, ", ") + "..."
  {
    if |filters| == 0 then i18n("zeroFilters")
    else if |filters| > 5 then i18n("oneFilterActive") + Join(filters, ", ") + "..."
    else i18n("multiFiltersActive") + Join(filters, ", ")
  }

  /** The formatter and the overview controller produce the same summary for
      the same filters. */
  lemma FilterItemsToTextMatchesSummary(i18n: I18n, filters: seq<string>)
    ensures FilterItemsToText(i18n, filters) == FilterSummary.SummaryText(i18n, filters)
  {
  }
}

=== FILE: js_strings.dfy ===
/** The `String` and `Array` built-ins the controllers call, with their
    JavaScript semantics: clamping and swapping in `substring`, `-1` for a
    missing occurrence, a negative start position counting as 0. */
module JsStrings {

  /** `pat` occurs in `s` starting at index `i`. */
  predicate OccursAt(s: string, pat: string, i: int) {
    0 <= i && i + |pat| <= |s| && s[i..i + |pat|] == pat
  }

  function Clamp(x: int, lo: int, hi: int): (r: int)
    requires lo <= hi
    ensures lo <= r <= hi
    ensures lo <= x <= hi ==> r == x
  {
    if x < lo then lo else if x > hi then hi else x
  }

  /** `s.substring(a, b)`: both ends are clamped to `[0, |s|]` and swapped
      when the start lies after the end. */
  function Substring(s: string, a: int, b: int): string
  {
    var x, y := Clamp(a, 0, |s|), Clamp(b, 0, |s|);
    if x <= y then s[x..y] else s[y..x]
  }

  /** `s.substring(a)`: from `a` (clamped) to the end. */
  function SubstringFrom(s: string, a: int): (r: string)
    ensures r == s[Clamp(a, 0, |s|)..]
  {
    Substring(s, a, |s|)
  }

  /** First occurrence of `pat` at an index `>= from`, or `-1`. */
  function IndexOfFrom(s: string, pat: string, from: nat): (r: int)
    requires from <= |s|
    ensures r == -1 || (from <= r && OccursAt(s, pat, r))
    ensures r == -1 ==> forall k :: from <= k <= |s| ==> !OccursAt(s, pat, k)
    ensures r != -1 ==> forall k :: from <= k < r ==> !OccursAt(s, pat, k)
    decreases |s| - from
  {
    if OccursAt(s, pat, from) then from
    else if from == |s| then -1
    else IndexOfFrom(s, pat, from + 1)
  }

  /** `s.indexOf(pat, position)`: the position is clamped to `[0, |s|]`,
      so a negative one searches from the start. */
  function IndexOf(s: string, pat: string, position: int): (r: int)
    ensures r == -1 || (Clamp(position, 0, |s|) <= r && OccursAt(s, pat, r))
    ensures r == -1 ==> forall k :: Clamp(position, 0, |s|) <= k <= |s| ==> !OccursAt(s, pat, k)
    ensures r != -1 ==> forall k :: Clamp(position, 0, |s|) <= k < r ==> !OccursAt(s, pat, k)
  {
    IndexOfFrom(s, pat, Clamp(position, 0, |s|))
  }

  /** Last occurrence of `pat` at an index `<= upTo`, or `-1`. */
  function LastIndexOfUpTo(s: string, pat: string, upTo: int): (r: int)
    ensures r == -1 || (r <= upTo && OccursAt(s, pat, r))
    ensures r == -1 ==> forall k :: 0 <= k <= upTo ==> !OccursAt(s, pat, k)
    ensures forall k :: r < k <= upTo ==> !OccursAt(s, pat, k)
    decreases upTo + 1
  {
    if upTo < 0 then -1
    else if OccursAt(s, pat, upTo) then upTo
    else LastIndexOfUpTo(s, pat, upTo - 1)
  }

  /** `s.lastIndexOf(pat)`: the last occurrence of `pat`, or `-1`. */
  function LastIndexOf(s: string, pat: string): (r: int)
    ensures r == -1 || OccursAt(s, pat, r)
    ensures forall k :: r < k ==> !OccursAt(s, pat, k)
  {
    LastIndexOfUpTo(s, pat, |s|)
  }

  /** `s.split("/").pop()`: the text after the last `/`, or all of `s`. */
  function LastSegment(s: string): (r: string)
    ensures forall i :: 0 <= i < |r| ==> r[i] != '/'
    ensures |r| <= |s| && r == s[|s| - |r|..]
    ensures |r| < |s| ==> s[|s| - |r| - 1] == '/'
  {
    LastSegmentShape(s);
    s[LastIndexOf(s, "/") + 1..]
  }

  lemma LastSegmentShape(s: string)
    ensures var r := s[LastIndexOf(s, "/") + 1..];
            && (forall i :: 0 <= i < |r| ==> r[i] != '/')
            && (|r| < |s| ==> s[|s| - |r| - 1] == '/')
  {
    var k := LastIndexOf(s, "/");
    if k >= 0 {
      OccursAtOneChar(s, '/', k);
    }
    forall j | k < j < |s|
      ensures s[j] != '/'
    {
      OccursAtOneChar(s, '/', j);
    }
  }

  /** A one-character pattern occurs where that character is. */
  lemma OccursAtOneChar(s: string, c: char, j: int)
    requires 0 <= j < |s|
    ensures OccursAt(s, [c], j) <==> s[j] == c
  {
    assert s[j..j + 1] == [s[j]];
  }

  /** `items.join(sep)`: the items separated by `sep`, `""` for no items. */
  function Join(items: seq<string>, sep: string): string {
    if |items| == 0 then ""
    else if |items| == 1 then items[0]
    else items[0] + sep + Join(items[1..], sep)
  }

  /** Joining one more item appends the separator and the item. */
  lemma {:induction false} JoinSnoc(items: seq<string>, last: string, sep: string)
    requires |items| > 0
    ensures Join(items + [last], sep) == Join(items, sep) + sep + last
  {
    if |items| > 1 {
      assert (items + [last])[1..] == items[1..] + [last];
      JoinSnoc(items[1..], last, sep);
    } else {
      assert (items + [last])[1..] == [last];
    }
  }
}

=== FILE: js_values.dfy ===
/** The JavaScript values the controllers inspect, with the language's
    truthiness, strict equality, loose equality against a string, and the two
    string-to-number conversions the controllers rely on. */
module JsValues {
  import opened Wrappers

  /** A JavaScript value. Numbers are integers here (`Num`), plus `NaN`;
      objects are compared by reference, so they carry one. */
  datatype JsValue =
    | Undefined
    | Null
    | Bool(b: bool)
    | Num(n: int)
    | NaN
    | Str(s: string)
    | Object(ref: nat)

  /** JavaScript truthiness: `false`, `0`, `NaN`, `""`, `null` and
      `undefined` are falsy, everything else is truthy. */
  predicate Truthy(v: JsValue) {
    match v
    case Bool(b) => b
    case Num(n) => n != 0
    case Str(s) => s != ""
    case Object(_) => true
    case _ => false
  }

  /** `a === b`: equal type and value, except that `NaN` equals nothing. */
  predicate StrictEquals(a: JsValue, b: JsValue) {
    !a.NaN? && a == b
  }

  lemma StrictEqualsIsPartialEquivalence(a: JsValue, b: JsValue, c: JsValue)
    ensures StrictEquals(a, b) ==> StrictEquals(b, a)
    ensures StrictEquals(a, b) && StrictEquals(b, c) ==> StrictEquals(a, c)
    ensures StrictEquals(a, a) <==> !a.NaN?
  {
  }

  /** The characters `String.prototype.trim` and `parseInt` skip: the
      ECMAScript WhiteSpace and LineTerminator code points. */
  predicate IsJsWhitespace(c: char) {
    || c == '\t' || c == '\n' || c == '\U{000B}' || c == '\U{000C}' || c == '\r'
    || c == ' ' || c == '\U{00A0}' || c == '\U{1680}'
    || ('\U{2000}' <= c <= '\U{200A}')
    || c == '\U{2028}' || c == '\U{2029}' || c == '\U{202F}' || c == '\U{205F}'
    || c == '\U{3000}' || c == '\U{FEFF}'
  }

  /** `s` without its leading whitespace. */
  function TrimStart(s: string): string {
    if |s| > 0 && IsJsWhitespace(s[0]) then TrimStart(s[1..]) else s
  }

  /** `s` without its trailing whitespace. */
  function TrimEnd(s: string): string {
    if |s| > 0 && IsJsWhitespace(s[|s| - 1]) then TrimEnd(s[..|s| - 1]) else s
  }

  function Trim(s: string): string {
    TrimEnd(TrimStart(s))
  }

  predicate IsDecimalDigit(c: char) {
    '0' <= c <= '9'
  }

  predicate AllDecimalDigits(s: string) {
    forall i :: 0 <= i < |s| ==> IsDecimalDigit(s[i])
  }

  /** The value of a run of decimal digits, most significant first (0 for
      the empty run). */
  function DigitsValue(s: string): nat
    requires AllDecimalDigits(s)
  {
    if s == [] then 0
    else DigitsValue(s[..|s| - 1]) * 10 + (s[|s| - 1] as int - '0' as int)
  }

  /** The canonical decimal rendering of a natural number, as `String(n)`
      produces it and as a route parameter carries an ID. */
  function DecimalString(n: nat): (r: string)
    ensures |r| > 0 && AllDecimalDigits(r)
    ensures n > 0 ==> r[0] != '0'
    ensures n == 0 ==> r == "0"
  {
    if n < 10 then [('0' as int + n) as char]
    else DecimalString(n / 10) + [('0' as int + n % 10) as char]
  }

  lemma {:induction false} DigitsValueOfDecimalString(n: nat)
    ensures DigitsValue(DecimalString(n)) == n
  {
    if n >= 10 {
      var s := DecimalString(n);
      assert s[..|s| - 1] == DecimalString(n / 10);
      DigitsValueOfDecimalString(n / 10);
    }
  }

  lemma TrimOfDigits(s: string)
    requires |s| > 0 && AllDecimalDigits(s)
    ensures Trim(s) == s
  {
    assert !IsJsWhitespace(s[0]);
    assert TrimStart(s) == s;
    assert !IsJsWhitespace(s[|s| - 1]);
  }

  /** `Number(s)` for a string, restricted to the integer forms: blank text is
      0, an optionally signed run of decimal digits is its value, anything
      else is `None` (NaN, or a non-integer form this model does not parse). */
  function StringToInteger(s: string): Option<int> {
    var t := Trim(s);
    if t == "" then Some(0)
    else if |t| > 1 && t[0] == '-' && AllDecimalDigits(t[1..]) then Some(-(DigitsValue(t[1..]) as int))
    else if |t| > 1 && t[0] == '+' && AllDecimalDigits(t[1..]) then Some(DigitsValue(t[1..]))
    else if AllDecimalDigits(t) then Some(DigitsValue(t))
    else None
  }

  /** Rendering a number and reading it back gives the number again. */
  lemma StringToIntegerOfDecimalString(n: nat)
    ensures StringToInteger(DecimalString(n)) == Some(n)
  {
    var s := DecimalString(n);
    TrimOfDigits(s);
    DigitsValueOfDecimalString(n);
    assert IsDecimalDigit(s[0]);
  }

  /** `v == s` for a string `s` (the abstract equality comparison): strings
      compare by content, numbers and booleans compare after `Number(s)`,
      `undefined`, `null` and `NaN` equal no string. Objects are converted
      to a primitive by the framework, which this model does not see, so
      they are taken to equal no string. */
  predicate LooseEqualsString(v: JsValue, s: string) {
    match v
    case Str(t) => t == s
    case Num(n) => StringToInteger(s) == Some(n)
    case Bool(b) => StringToInteger(s) == Some(if b then 1 else 0)
    case _ => false
  }

  /** A number equals its own decimal rendering under `==`: the route
      parameter built from a numeric ID finds that ID again. */
  lemma LooseEqualsOwnRendering(n: nat)
    ensures LooseEqualsString(Num(n), DecimalString(n))
    ensures LooseEqualsString(Str(DecimalString(n)), DecimalString(n))
  {
    StringToIntegerOfDecimalString(n);
  }

  predicate IsDigitInRadix(c: char, hex: bool) {
    IsDecimalDigit(c) || (hex && (('a' <= c <= 'f') || ('A' <= c <= 'F')))
  }

  /** Whether the leading run of digits of `s` contains a digit other than 0,
      i.e. whether the number `parseInt` reads from it is non-zero. */
  predicate LeadingRunHasNonZero(s: string, hex: bool) {
    |s| > 0 && IsDigitInRadix(s[0], hex) && (s[0] != '0' || LeadingRunHasNonZero(s[1..], hex))
  }

  /** Truthiness of `parseInt(s)`: leading whitespace is skipped, one sign is
      read, `0x`/`0X` switches to base 16, and the result is truthy exactly
      when the digits read denote a non-zero number (no digits gives NaN,
      which is falsy). */
  predicate ParseIntTruthy(s: string) {
    var t := TrimStart(s);
    var u := if |t| > 0 && (t[0] == '+' || t[0] == '-') then t[1..] else t;
    if |u| >= 2 && u[0] == '0' && (u[1] == 'x' || u[1] == 'X') then LeadingRunHasNonZero(u[2..], true)
    else LeadingRunHasNonZero(u, false)
  }

  /** For the decimal rendering of a number, `parseInt` is truthy exactly when
      the number is not zero. */
  lemma ParseIntTruthyOfDecimalString(n: nat)
    ensures ParseIntTruthy(DecimalString(n)) <==> n != 0
  {
    var s := DecimalString(n);
    if n == 0 {
      assert s == "0";
      assert TrimStart(s) == s;
      assert !LeadingRunHasNonZero(s[1..], false);
    } else {
      ParseIntTruthyOfLeadingNonZero(s);
    }
  }

  /** Digits that do not start with 0 make `parseInt` truthy. */
  lemma ParseIntTruthyOfLeadingNonZero(s: string)
    requires |s| > 0 && AllDecimalDigits(s) && s[0] != '0'
    ensures ParseIntTruthy(s)
  {
    assert !IsJsWhitespace(s[0]) && IsDecimalDigit(s[0]);
    assert TrimStart(s) == s;
  }
}

=== FILE: overview_filters.dfy ===
/** How the products overview turns the filter bar into one filter tree
    (ProductsOverview.controller.js: `_getCategoryMultiComboboxFilters`,
    `_getSearchInputFilters`, `_getInputFilters`, `onPressConfirmFilters`,
    and the value-help search `onFilterBarWhitespacesSearch`). Control reads
    become parameters: the texts of the selected combo items, the search
    query, the tokens of the price input. */
module OverviewFilters {
  import opened Wrappers
  import opened JsValues
  import opened FilterTree

  const NamePath: string := "Name"
  const CategoryPath: string := "Category/Name"
  const StatusPath: string := "Status"
  const SupplierPath: string := "Supplier/Name"
  const PricePath: string := "Price"
  const RatingPath: string := "Rating"

  /** One `Contains` condition on `path` per value, in value order. */
  function ContainsFilters(path: string, values: seq<string>): (r: seq<Filter>)
    ensures |r| == |values|
    ensures forall k :: 0 <= k < |values| ==> r[k] == Leaf(path, Contains, Text(values[k]), None)
  {
    if |values| == 0 then [] else [Leaf(path, Contains, Text(values[0]), None)] + ContainsFilters(path, values[1..])
  }

  /** `_getCategoryMultiComboboxFilters(fieldId, path)`: nothing when no item
      of the multi-combo box is selected, otherwise one `Contains` condition
      on `path` per selected item text, in the order `getSelectedItems`
      returns them (the combo box's item order). */
  function ComboBoxFilters(path: string, selectedTexts: seq<string>): (r: Option<seq<Filter>>)
    ensures r.None? <==> |selectedTexts| == 0
    ensures r.Some? ==> |r.value| == |selectedTexts|
    ensures r.Some? ==> forall k :: 0 <= k < |selectedTexts| ==>
                          r.value[k] == Leaf(path, Contains, Text(selectedTexts[k]), None)
  {
    if |selectedTexts| == 0 then None else Some(ContainsFilters(path, selectedTexts))
  }

  /** The free-text conditions every non-empty query gets: `Contains` on the
      product, category and supplier names. */
  function TextSearchFilters(query: string): seq<Filter> {
    [ Leaf(NamePath, Contains, Text(query), None),
      Leaf(CategoryPath, Contains, Text(query), None),
      Leaf(SupplierPath, Contains, Text(query), None) ]
  }

  /** The conditions a query that `parseInt` reads as non-zero gets: the
      text conditions, then `EQ` on rating and on price. */
  function NumberSearchFilters(query: string): seq<Filter> {
    TextSearchFilters(query) + [ Leaf(RatingPath, EQ, Text(query), None), Leaf(PricePath, EQ, Text(query), None) ]
  }

  /** `_getSearchInputFilters`: nothing for an empty query; otherwise the
      three name conditions, followed by the rating and price conditions
      exactly when `parseInt(query)` is truthy. */
  function SearchFilters(query: string): (r: Option<seq<Filter>>)
    ensures r.None? <==> query == ""
    ensures r.Some? ==> |r.value| == (if ParseIntTruthy(query) then 5 else 3)
    ensures r.Some? ==> r.value[..3] == TextSearchFilters(query)
    ensures r.Some? && ParseIntTruthy(query) ==>
              r.value[3..] == [Leaf(RatingPath, EQ, Text(query), None), Leaf(PricePath, EQ, Text(query), None)]
    ensures r.Some? ==> forall k :: 0 <= k < |r.value| ==> r.value[k].Leaf? && r.value[k].value1 == Text(query)
  {
    SearchFiltersShape(query);
    if query == "" then None
    else if ParseIntTruthy(query) then Some(NumberSearchFilters(query))
    else Some(TextSearchFilters(query))
  }

  lemma SearchFiltersShape(query: string)
    ensures |TextSearchFilters(query)| == 3 && |NumberSearchFilters(query)| == 5
    ensures NumberSearchFilters(query)[..3] == TextSearchFilters(query)
    ensures NumberSearchFilters(query)[3..] ==
              [Leaf(RatingPath, EQ, Text(query), None), Leaf(PricePath, EQ, Text(query), None)]
    ensures forall k :: 0 <= k < 5 ==>
              NumberSearchFilters(query)[k].Leaf? && NumberSearchFilters(query)[k].value1 == Text(query)
    ensures forall k :: 0 <= k < 3 ==>
              TextSearchFilters(query)[k].Leaf? && TextSearchFilters(query)[k].value1 == Text(query)
  {
  }

  /** A query that reads as 0, like `"0"`, gets only the text conditions. */
  lemma ZeroQueryGetsTextFiltersOnly()
    ensures SearchFilters("0") == Some(TextSearchFilters("0"))
  {
    ParseIntTruthyOfDecimalString(0);
  }

  /** The decimal rendering of a positive number also searches rating and
      price. */
  lemma NumericQueryAlsoSearchesNumbers(n: nat)
    requires n > 0
    ensures SearchFilters(DecimalString(n)) == Some(NumberSearchFilters(DecimalString(n)))
  {
    ParseIntTruthyOfDecimalString(n);
  }

  /** The custom data a price token carries: a range condition from the
      value-help dialog, or a plain row (no `operation`). */
  datatype TokenData = Range(operation: Operator, value1: JsValue, value2: JsValue) | Row
  datatype Token = Token(text: string, data: TokenData)

  /** The condition for a token with an operation: that operation on the
      price, between `Number(value1)` and `Number(value2)`. */
  function RangeFilter(t: Token): Filter
    requires t.data.Range?
  {
    Leaf(PricePath, t.data.operation, NumberOf(t.data.value1), Some(NumberOf(t.data.value2)))
  }

  /** The condition for a plain token: price `EQ Number(text)`. */
  function PlainFilter(t: Token): Filter {
    Leaf(PricePath, EQ, NumberOf(Str(t.text)), None)
  }

  /** The conditions of the tokens that carry an operation, in token order. */
  function RangeFilters(tokens: seq<Token>): seq<Filter> {
    if |tokens| == 0 then []
    else (if tokens[0].data.Range? then [RangeFilter(tokens[0])] else []) + RangeFilters(tokens[1..])
  }

  /** The conditions of the plain tokens, in token order. */
  function PlainFilters(tokens: seq<Token>): seq<Filter> {
    if |tokens| == 0 then []
    else (if tokens[0].data.Range? then [] else [PlainFilter(tokens[0])]) + PlainFilters(tokens[1..])
  }

  /** Every token gives exactly one condition: either a range one or a plain one. */
  lemma {:induction false} TokenFilterCount(tokens: seq<Token>)
    ensures |RangeFilters(tokens)| + |PlainFilters(tokens)| == |tokens|
  {
    if |tokens| > 0 {
      TokenFilterCount(tokens[1..]);
    }
  }

  /** The conditions keep token order: the conditions for `a + b` are those
      for `a` followed by those for `b`. */
  lemma {:induction false} TokenFiltersKeepOrder(a: seq<Token>, b: seq<Token>)
    ensures RangeFilters(a + b) == RangeFilters(a) + RangeFilters(b)
    ensures PlainFilters(a + b) == PlainFilters(a) + PlainFilters(b)
  {
    if |a| > 0 {
      assert (a + b)[1..] == a[1..] + b;
      TokenFiltersKeepOrder(a[1..], b);
    } else {
      assert a + b == b;
    }
  }

  /** `_getInputFilters`: nothing without tokens; otherwise one OR group
      with one price condition per token, the tokens carrying an operation
      first (in token order), then the plain ones as `EQ`. */
  function InputFilters(tokens: seq<Token>): (r: Option<Filter>)
    ensures r.None? <==> |tokens| == 0
    ensures r.Some? ==> r.value.Group? && !r.value.and && |r.value.filters| == |tokens|
    ensures r.Some? ==> forall k :: 0 <= k < |r.value.filters| ==>
                          r.value.filters[k].Leaf? && r.value.filters[k].path == PricePath
    ensures r.Some? ==> r.value.filters == RangeFilters(tokens) + PlainFilters(tokens)
  {
    TokenFilterCount(tokens);
    AllPriceLeaves(tokens);
    if |tokens| == 0 then None
    else Some(Group(RangeFilters(tokens) + PlainFilters(tokens), false))
  }

  lemma {:induction false} AllPriceLeaves(tokens: seq<Token>)
    ensures forall k :: 0 <= k < |RangeFilters(tokens)| ==>
              RangeFilters(tokens)[k].Leaf? && RangeFilters(tokens)[k].path == PricePath
    ensures forall k :: 0 <= k < |PlainFilters(tokens)| ==>
              PlainFilters(tokens)[k].Leaf? && PlainFilters(tokens)[k].path == PricePath
              && PlainFilters(tokens)[k].op == EQ
  {
    if |tokens| > 0 {
      AllPriceLeaves(tokens[1..]);
    }
  }

  /** What the filter bar shows when the user confirms it. */
  datatype FilterBarState = FilterBarState(
    categoryTexts: seq<string>,
    statusTexts: seq<string>,
    supplierTexts: seq<string>,
    query: string,
    tokens: seq<Token>)

  /** `new Filter(x)` for one entry of the array in `onPressConfirmFilters`,
      with `undefined` entries dropped: an array becomes an OR group, the
      group built from the tokens is kept as it is. */
  function DefinedList(sub: Option<seq<Filter>>): seq<Filter> {
    if sub.Some? then [OrGroup(sub.value)] else []
  }

  function DefinedFilter(sub: Option<Filter>): seq<Filter> {
    if sub.Some? then [sub.value] else []
  }

  /** `onPressConfirmFilters`: one AND group whose children are the defined
      sub-filters in the fixed order category, status, supplier, search,
      price input. */
  function ConfirmFilters(
    category: Option<seq<Filter>>, status: Option<seq<Filter>>, supplier: Option<seq<Filter>>,
    search: Option<seq<Filter>>, input: Option<Filter>): (r: Filter)
    ensures r.Group? && r.and
    ensures |r.filters| == |DefinedList(category)| + |DefinedList(status)| + |DefinedList(supplier)|
                           + |DefinedList(search)| + |DefinedFilter(input)|
    ensures category.Some? ==> r.filters[0] == OrGroup(category.value)
    ensures status.Some? ==> r.filters[|DefinedList(category)|] == OrGroup(status.value)
    ensures supplier.Some? ==>
              r.filters[|DefinedList(category)| + |DefinedList(status)|] == OrGroup(supplier.value)
    ensures search.Some? ==>
              r.filters[|DefinedList(category)| + |DefinedList(status)| + |DefinedList(supplier)|]
              == OrGroup(search.value)
    ensures input.Some? ==> r.filters[|r.filters| - 1] == input.value
    ensures category.None? && status.None? && supplier.None? && search.None? && input.None? ==> r.filters == []
  {
    Group(DefinedList(category) + (DefinedList(status) + (DefinedList(supplier)
          + (DefinedList(search) + DefinedFilter(input)))), true)
  }

  /** The whole confirm step, reading the filter bar. */
  function ApplyFilterBar(bar: FilterBarState): Filter {
    ConfirmFilters(
      ComboBoxFilters(CategoryPath, bar.categoryTexts),
      ComboBoxFilters(StatusPath, bar.statusTexts),
      ComboBoxFilters(SupplierPath, bar.supplierTexts),
      SearchFilters(bar.query),
      InputFilters(bar.tokens))
  }

  function Indicator(b: bool): nat {
    if b then 1 else 0
  }

  /** The confirmed filter has one child per part of the filter bar that has
      something in it, and none for an empty bar. */
  lemma ApplyFilterBarChildren(bar: FilterBarState)
    ensures var r := ApplyFilterBar(bar);
            r.Group? && r.and
            && |r.filters| == Indicator(|bar.categoryTexts| > 0) + Indicator(|bar.statusTexts| > 0)
                              + Indicator(|bar.supplierTexts| > 0) + Indicator(bar.query != "")
                              + Indicator(|bar.tokens| > 0)
  {
    var category := ComboBoxFilters(CategoryPath, bar.categoryTexts);
    var status := ComboBoxFilters(StatusPath, bar.statusTexts);
    var supplier := ComboBoxFilters(SupplierPath, bar.supplierTexts);
    var search := SearchFilters(bar.query);
    var input := InputFilters(bar.tokens);
    assert |DefinedList(category)| == Indicator(|bar.categoryTexts| > 0);
    assert |DefinedList(status)| == Indicator(|bar.statusTexts| > 0);
    assert |DefinedList(supplier)| == Indicator(|bar.supplierTexts| > 0);
    assert |DefinedList(search)| == Indicator(bar.query != "");
    assert |DefinedFilter(input)| == Indicator(|bar.tokens| > 0);
    var r := ConfirmFilters(category, status, supplier, search, input);
    assert ApplyFilterBar(bar) == r;
  }

  /** A field of the value-help filter bar: its name and current value. */
  datatype SearchControl = SearchControl(name: string, value: string)

  /** One `Contains` condition per field whose value is non-empty, in field order. */
  function FieldFilters(selection: seq<SearchControl>): (r: seq<Filter>)
    ensures |r| <= |selection|
    ensures forall k :: 0 <= k < |r| ==> r[k].Leaf? && r[k].op == Contains
                                          && r[k].value1.Text? && r[k].value1.s != ""
  {
    if |selection| == 0 then []
    else (if selection[0].value != "" then [Leaf(selection[0].name, Contains, Text(selection[0].value), None)] else [])
         + FieldFilters(selection[1..])
  }

  /** The fields whose value is non-empty, in field order. */
  function NonEmptyFields(selection: seq<SearchControl>): seq<SearchControl> {
    if |selection| == 0 then []
    else (if selection[0].value != "" then [selection[0]] else []) + NonEmptyFields(selection[1..])
  }

  /** The field conditions are exactly one `Contains` condition per
      non-empty field, on that field's name and value, in field order; the
      non-empty fields are exactly the fields of the selection whose value
      is not "". */
  lemma FieldFiltersMatchFields(selection: seq<SearchControl>)
    ensures var fs := FieldFilters(selection);
            var ne := NonEmptyFields(selection);
            && |fs| == |ne|
            && (forall k :: 0 <= k < |fs| ==> fs[k] == Leaf(ne[k].name, Contains, Text(ne[k].value), None))
            && (forall c :: c in ne <==> c in selection && c.value != "")
  {
    FieldFiltersPointwise(selection);
    NonEmptyFieldsMembers(selection);
  }

  lemma {:induction false} FieldFiltersPointwise(selection: seq<SearchControl>)
    ensures var fs := FieldFilters(selection);
            var ne := NonEmptyFields(selection);
            && |fs| == |ne|
            && (forall k :: 0 <= k < |fs| ==> fs[k] == Leaf(ne[k].name, Contains, Text(ne[k].value), None))
  {
    if |selection| > 0 {
      var rest := selection[1..];
      var head := selection[0];
      FieldFiltersPointwise(rest);
      if head.value != "" {
        var fs := FieldFilters(selection);
        var ne := NonEmptyFields(selection);
        var fr := FieldFilters(rest);
        var nr := NonEmptyFields(rest);
        assert fs == [Leaf(head.name, Contains, Text(head.value), None)] + fr;
        assert ne == [head] + nr;
        forall k | 1 <= k < |fs|
          ensures fs[k] == Leaf(ne[k].name, Contains, Text(ne[k].value), None)
        {
          assert fs[k] == fr[k - 1] && ne[k] == nr[k - 1];
        }
      }
    }
  }

  lemma {:induction false} NonEmptyFieldsMembers(selection: seq<SearchControl>)
    ensures forall c :: c in NonEmptyFields(selection) <==> c in selection && c.value != ""
  {
    if |selection| > 0 {
      var rest := selection[1..];
      NonEmptyFieldsMembers(rest);
      assert selection == [selection[0]] + rest;
    }
  }

  /** `onFilterBarWhitespacesSearch`: an AND group of the non-empty field
      conditions, always closed by the basic-search OR group (price `EQ`
      query or name `Contains` query). */
  function ValueHelpSearchFilter(selection: seq<SearchControl>, basicQuery: string): (r: Filter)
    ensures r.Group? && r.and && 1 <= |r.filters| <= |selection| + 1
    ensures r.filters[|r.filters| - 1] ==
              OrGroup([Leaf(PricePath, EQ, Text(basicQuery), None), Leaf(NamePath, Contains, Text(basicQuery), None)])
    ensures forall k :: 0 <= k < |r.filters| - 1 ==> r.filters[k].Leaf? && r.filters[k].op == Contains
    ensures r.filters[..|r.filters| - 1] == FieldFilters(selection)
  {
    Group(FieldFilters(selection)
          + [OrGroup([Leaf(PricePath, EQ, Text(basicQuery), None), Leaf(NamePath, Contains, Text(basicQuery), None)])],
          true)
  }
}

=== FILE: products.dfy ===
/** The array-backed product collection the details page edits
    (ProductDetails.controller.js: `_updateProductDetails`,
    `onPressDeleteProduct`, `onPatternMatchedProductCreate`,
    `_getDefaultProductModel`, `onPressCreateColumn`, `_setProductModel`). */
module Products {
  import opened Wrappers
  import opened JsValues

  /** One line of a product's composition table. */
  datatype CompositionRow = CompositionRow(name: string, percent: string)

  /** A product record as the JSON model holds it. */
  datatype Product = Product(
    id: JsValue,
    name: string,
    description: JsValue,
    categoryName: string,
    supplierName: string,
    status: string,
    price: JsValue,
    rating: JsValue,
    composition: seq<CompositionRow>,
    discontinuedDate: JsValue)

  /** `products.findIndex(p => p.ID === id)`: the first index whose ID is
      strictly equal to `id`, or -1. */
  function FindIndexById(products: seq<Product>, id: JsValue): (r: int)
    ensures -1 <= r < |products|
    ensures r >= 0 ==> StrictEquals(products[r].id, id)
    ensures forall j :: 0 <= j < |products| && (r == -1 || j < r) ==> !StrictEquals(products[j].id, id)
  {
    FindIndexFrom(products, id, 0)
  }

  function FindIndexFrom(products: seq<Product>, id: JsValue, from: nat): (r: int)
    requires from <= |products|
    ensures r == -1 || from <= r < |products|
    ensures r >= 0 ==> StrictEquals(products[r].id, id)
    ensures forall j :: from <= j < |products| && (r == -1 || j < r) ==> !StrictEquals(products[j].id, id)
    decreases |products| - from
  {
    if from == |products| then -1
    else if StrictEquals(products[from].id, id) then from
    else FindIndexFrom(products, id, from + 1)
  }

  /** `_updateProductDetails`: the edited product replaces the first product
      with the same ID (`===`), or is appended when there is none; every
      other product stays where it was. */
  function UpsertProduct(products: seq<Product>, p: Product): (r: seq<Product>)
    ensures var i := FindIndexById(products, p.id);
            if i >= 0 then |r| == |products| && r[i] == p && (forall j :: 0 <= j < |r| && j != i ==> r[j] == products[j])
            else r == products + [p]
    ensures !p.id.NaN? ==> FindIndexById(r, p.id) >= 0 && r[FindIndexById(r, p.id)] == p
  {
    var i := FindIndexById(products, p.id);
    if i >= 0 then products[i := p]
    else
      FindIndexAfterAppend(products, p);
      products + [p]
  }

  lemma FindIndexAfterAppend(products: seq<Product>, p: Product)
    requires FindIndexById(products, p.id) == -1
    ensures !p.id.NaN? ==> FindIndexById(products + [p], p.id) == |products|
  {
    var grown := products + [p];
    var k := FindIndexById(grown, p.id);
    if !p.id.NaN? && k != |products| {
      assert StrictEquals(grown[|products|].id, p.id);
    }
  }

  /** Writing the same product twice is writing it once. */
  lemma UpsertProductIdempotent(products: seq<Product>, p: Product)
    requires !p.id.NaN?
    ensures UpsertProduct(UpsertProduct(products, p), p) == UpsertProduct(products, p)
  {
    var once := UpsertProduct(products, p);
    var i := FindIndexById(once, p.id);
    assert once[i := p] == once;
  }

  /** `onPressDeleteProduct`: the first product whose ID is `id` (`===`) is
      removed and the rest keep their order; without a match nothing changes. */
  function DeleteProductById(products: seq<Product>, id: JsValue): (r: seq<Product>)
    ensures var i := FindIndexById(products, id);
            if i >= 0 then r == products[..i] + products[i + 1..] && |r| == |products| - 1
            else r == products
    ensures multiset(r) <= multiset(products)
  {
    var i := FindIndexById(products, id);
    if i >= 0 then
      RemoveAtShrinksMultiset(products, i);
      products[..i] + products[i + 1..]
    else products
  }

  lemma RemoveAtShrinksMultiset<T>(s: seq<T>, i: nat)
    requires i < |s|
    ensures multiset(s[..i] + s[i + 1..]) <= multiset(s)
  {
    assert s == s[..i] + [s[i]] + s[i + 1..];
  }

  /** Deleting a product that was just appended under a new ID gives the
      list back. */
  lemma DeleteUndoesAppend(products: seq<Product>, p: Product)
    requires !p.id.NaN?
    requires FindIndexById(products, p.id) == -1
    ensures DeleteProductById(UpsertProduct(products, p), p.id) == products
  {
    var grown := UpsertProduct(products, p);
    assert grown == products + [p];
    assert FindIndexById(grown, p.id) == |products|;
    assert grown[..|products|] == products;
  }

  /** `_getDefaultProductModel(newID)`: an empty product form. */
  function DefaultProduct(newId: JsValue): (r: Product)
    ensures r.id == newId
    ensures r.name == "" && r.categoryName == "" && r.supplierName == "" && r.status == ""
    ensures r.price == Str("") && r.rating == Str("") && r.composition == []
  {
    Product(newId, "", Undefined, "", "", "", Str(""), Str(""), [], Undefined)
  }

  /** `onPatternMatchedProductCreate`, as written: the new product's ID is
      the current number of products plus one. */
  function CreatePageProduct(products: seq<Product>): (r: Product)
    ensures r.id == Num(|products| + 1)
    ensures r == DefaultProduct(r.id)
  {
    DefaultProduct(Num(|products| + 1))
  }

  function SampleProduct(id: int): Product {
    Product(Num(id), "Sample", Undefined, "", "", "", Num(1), Num(1), [], Undefined)
  }

  /** After product 1 of three is deleted, the create page offers ID 3,
      which product 3 still holds: saving the new product overwrites
      product 3 instead of adding a product. */
  lemma CountPlusOneIdCollides()
    ensures var products := [SampleProduct(2), SampleProduct(3)];
            var created := CreatePageProduct(products);
            && created.id == products[1].id
            && UpsertProduct(products, created) == [SampleProduct(2), created]
  {
    var products := [SampleProduct(2), SampleProduct(3)];
    var created := CreatePageProduct(products);
    assert FindIndexById(products, created.id) == 1;
  }

  /** The largest non-negative numeric ID in the list, 0 when there is none. */
  function MaxNumericId(products: seq<Product>): (r: nat)
    ensures forall j :: 0 <= j < |products| && products[j].id.Num? ==> products[j].id.n <= r
  {
    if |products| == 0 then 0
    else
      var rest := MaxNumericId(products[1..]);
      var here := if products[0].id.Num? && products[0].id.n > rest then products[0].id.n else rest;
      assert forall j :: 1 <= j < |products| ==> products[j] == products[1..][j - 1];
      here
  }

  /** An ID no product in the list holds. */
  function FreshProductId(products: seq<Product>): (r: JsValue)
    ensures r.Num? && r.n > 0
    ensures forall j :: 0 <= j < |products| ==> !StrictEquals(products[j].id, r)
  {
    Num(MaxNumericId(products) + 1)
  }

  /** The create page with a fresh ID (one more than the largest numeric ID). */
  function CreatePageProductFresh(products: seq<Product>): (r: Product)
    ensures r == DefaultProduct(r.id)
    ensures FindIndexById(products, r.id) == -1
  {
    DefaultProduct(FreshProductId(products))
  }

  /** Saving a product from the corrected create page always adds it and
      leaves every existing product in place. */
  lemma SavingFreshProductAppends(products: seq<Product>)
    ensures UpsertProduct(products, CreatePageProductFresh(products)) == products + [CreatePageProductFresh(products)]
  {
  }

  /** `onPressCreateColumn`: one empty composition row (name "", percent
      "0") is appended; earlier rows and every other field stay as they were. */
  function AddCompositionRow(p: Product): (r: Product)
    ensures |r.composition| == |p.composition| + 1
    ensures r.composition[..|p.composition|] == p.composition
    ensures r.composition[|p.composition|] == CompositionRow("", "0")
    ensures r.(composition := p.composition) == p
  {
    p.(composition := p.composition + [CompositionRow("", "0")])
  }

  /** Why selecting a product can fail: `JSON.parse(JSON.stringify(undefined))`
      throws when no product matches the route. */
  datatype SelectError = NoProductForRoute

  /** First index whose ID loosely equals (`==`) the route parameter, or -1. */
  function FindIndexByRoute(products: seq<Product>, routeId: string, from: nat): (r: int)
    requires from <= |products|
    ensures r == -1 || from <= r < |products|
    ensures r >= 0 ==> LooseEqualsString(products[r].id, routeId)
    ensures forall j :: from <= j < |products| && (r == -1 || j < r) ==> !LooseEqualsString(products[j].id, routeId)
    decreases |products| - from
  {
    if from == |products| then -1
    else if LooseEqualsString(products[from].id, routeId) then from
    else FindIndexByRoute(products, routeId, from + 1)
  }

  /** `_setProductModel`: a deep copy of the first product whose ID loosely
      equals the route's `id`; as values are immutable here, the copy is the
      product itself, and the list changes only when the copy is written
      back. No match makes the JSON round trip throw. */
  function SelectProductForRoute(products: seq<Product>, routeId: string): (r: Result<Product, SelectError>)
    ensures r.Failure? <==> forall j :: 0 <= j < |products| ==> !LooseEqualsString(products[j].id, routeId)
    ensures r.Success? ==> exists j :: 0 <= j < |products| && products[j] == r.value
                                       && LooseEqualsString(products[j].id, routeId)
    ensures r.Success? ==> r.value == products[FindIndexByRoute(products, routeId, 0)]
  {
    var i := FindIndexByRoute(products, routeId, 0);
    if i >= 0 then Success(products[i]) else Failure(NoProductForRoute)
  }

  /** Opening a product and saving it unedited leaves the list as it was. */
  lemma WriteBackUnchangedCopy(products: seq<Product>, routeId: string)
    requires SelectProductForRoute(products, routeId).Success?
    ensures UpsertProduct(products, SelectProductForRoute(products, routeId).value) == products
  {
    var i := FindIndexByRoute(products, routeId, 0);
    var p := products[i];
    FirstIdMatchIsRouteMatch(products, routeId, i);
    assert products[i := p] == products;
  }

  /** Opening a product, editing the copy in any field but its ID and
      saving it replaces exactly the opened product. */
  lemma WriteBackEditedCopy(products: seq<Product>, routeId: string, edited: Product)
    requires SelectProductForRoute(products, routeId).Success?
    requires edited.id == SelectProductForRoute(products, routeId).value.id
    ensures var i := FindIndexByRoute(products, routeId, 0);
            UpsertProduct(products, edited) == products[i := edited]
  {
    var i := FindIndexByRoute(products, routeId, 0);
    FirstIdMatchIsRouteMatch(products, routeId, i);
  }

  /** The product `_setProductModel` opens is also the first one holding its
      own ID, so `_updateProductDetails` writes it back to the same place. */
  lemma FirstIdMatchIsRouteMatch(products: seq<Product>, routeId: string, i: int)
    requires i == FindIndexByRoute(products, routeId, 0) && i >= 0
    ensures FindIndexById(products, products[i].id) == i
  {
    assert !products[i].id.NaN?;
  }

  /** A route built from a product's numeric ID opens a product with that ID. */
  lemma RouteOfNumericIdOpensIt(products: seq<Product>, j: nat, n: nat)
    requires j < |products| && products[j].id == Num(n)
    ensures SelectProductForRoute(products, DecimalString(n)).Success?
  {
    LooseEqualsOwnRendering(n);
  }
}

=== FILE: selection.dfy ===
/** Deleting the products selected in the overview table
    (ProductsOverview.controller.js: `onSelectionChangeTable`,
    `onPressDeleteProducts`, `_buildConfirmationText`, `onPressDialogDelete`,
    `_deleteSelectedProducts`). A selected row is known by its binding path,
    "/Products/<index>". */
module Selection {
  import opened Wrappers
  import opened JsValues
  import opened JsStrings
  import UiTypes
  import opened SeqUtil
  import opened Products

  /** A selected table row: its binding path and the `Name` it shows. */
  datatype SelectedRow = SelectedRow(path: string, name: string)

  /** `onSelectionChangeTable`: the delete button is enabled exactly when at
      least one row is selected. */
  function DeleteButtonEnabled(selected: seq<SelectedRow>): (r: bool)
    ensures r <==> selected != []
  {
    |selected| > 0
  }

  /** Reading `selectedItems[0]` with nothing selected throws a TypeError. */
  datatype ConfirmError = NoSelectedRow

  /** `_buildConfirmationText`: the `deleteProductConfirmMessage` text when
      exactly one row is selected and `deleteProductsConfirmMessage` when
      several are. Both texts are built before the choice, so with no row
      selected the first row's binding context is read and the call fails.
      The name and count passed as arguments never reach the text, because
      the i18n lookup takes only the key. */
  function ConfirmationText(i18n: UiTypes.I18n, selected: seq<SelectedRow>): (r: Result<string, ConfirmError>)
    ensures r.Failure? <==> |selected| == 0
    ensures |selected| == 1 ==> r == Result.Success(i18n("deleteProductConfirmMessage"))
    ensures |selected| > 1 ==> r == Result.Success(i18n("deleteProductsConfirmMessage"))
  {
    if |selected| == 0 then Failure(NoSelectedRow)
    else if |selected| == 1 then Result.Success(i18n("deleteProductConfirmMessage"))
    else Result.Success(i18n("deleteProductsConfirmMessage"))
  }

  /** `path.split("/").pop()` read as an array index; a segment that is not
      an integer (after JavaScript's number conversion) selects no row. */
  function RowIndex(path: string): Option<int> {
    StringToInteger(LastSegment(path))
  }

  /** The binding path of row `n` of the products list. */
  function RowPath(n: nat): string {
    "/Products/" + DecimalString(n)
  }

  /** Every row's binding path names its own index. */
  lemma RowIndexOfRowPath(n: nat)
    ensures RowIndex(RowPath(n)) == Some(n)
  {
    var d := DecimalString(n);
    var s := RowPath(n);
    var r := LastSegment(s);
    assert s[|s| - |d| - 1] == '/';
    assert r == d;
    StringToIntegerOfDecimalString(n);
  }

  /** The indices `_deleteSelectedProducts` reads from the selected rows. */
  function RowIndices(selected: seq<SelectedRow>): (r: seq<Option<int>>)
    ensures |r| == |selected|
    ensures forall k :: 0 <= k < |r| ==> r[k] == RowIndex(selected[k].path)
  {
    if |selected| == 0 then []
    else
      var rest := RowIndices(selected[1..]);
      assert forall k :: 1 <= k < |selected| ==> selected[k] == selected[1..][k - 1];
      [RowIndex(selected[0].path)] + rest
  }

  /** One `splice(index, 1)` behind the range check `0 <= index < length`. */
  function SpliceAt<T>(products: seq<T>, index: Option<int>): (r: seq<T>)
    ensures index.Some? && 0 <= index.value < |products| ==>
              r == products[..index.value] + products[index.value + 1..]
    ensures !(index.Some? && 0 <= index.value < |products|) ==> r == products
    ensures multiset(r) <= multiset(products)
  {
    if index.Some? && 0 <= index.value < |products| then
      RemoveAtShrinksMultiset(products, index.value);
      products[..index.value] + products[index.value + 1..]
    else products
  }

  /** The `forEach` loop: the splices run one after another, each on the
      list the previous one left. At most one row goes per index. */
  function SpliceEach<T>(products: seq<T>, indices: seq<Option<int>>): (r: seq<T>)
    ensures |products| - |indices| <= |r| <= |products|
    ensures multiset(r) <= multiset(products)
    decreases |indices|
  {
    if |indices| == 0 then products
    else SpliceEach(SpliceAt(products, indices[0]), indices[1..])
  }

  /** `_deleteSelectedProducts` as written: the selected rows' indices are
      spliced out in the order `getSelectedItems` returns them (the table's
      item order), so each splice after the first sees
      indices already shifted by the earlier ones. */
  function DeleteSelectedAsWritten(products: seq<Product>, selected: seq<SelectedRow>): (r: seq<Product>)
    ensures |selected| == 0 ==> r == products
    ensures |products| - |selected| <= |r| <= |products|
    ensures multiset(r) <= multiset(products)
  {
    if |selected| > 0 then SpliceEach(products, RowIndices(selected)) else products
  }

  /** How many of the indices below `n` are in `s`. */
  function CountBelow(s: set<int>, n: nat): nat {
    if n == 0 then 0 else CountBelow(s, n - 1) + (if n - 1 in s then 1 else 0)
  }

  /** The rows whose index is not in `s`, in their order: removing every
      selected row at once. */
  function KeptRows<T>(products: seq<T>, s: set<int>): seq<T> {
    if |products| == 0 then []
    else
      KeptRows(products[..|products| - 1], s)
      + (if |products| - 1 in s then [] else [products[|products| - 1]])
  }

  /** What `KeptRows` keeps: a subsequence of the rows, one row fewer for
      each selected index, and every row that is not selected. */
  lemma KeptRowsMeaning<T>(products: seq<T>, s: set<int>)
    ensures |KeptRows(products, s)| == |products| - CountBelow(s, |products|)
    ensures IsSubsequence(KeptRows(products, s), products)
    ensures forall i :: 0 <= i < |products| && i !in s ==> products[i] in KeptRows(products, s)
    ensures EveryUnselectedShifted(products, s, KeptRows(products, s))
  {
    KeptRowsLength(products, s);
    KeptRowsSubsequence(products, s);
    forall i | 0 <= i < |products| && i !in s
      ensures products[i] in KeptRows(products, s)
      ensures 0 <= i - CountBelow(s, i) < |KeptRows(products, s)|
      ensures KeptRows(products, s)[i - CountBelow(s, i)] == products[i]
    {
      KeptRowsKeepsUnselected(products, s, i);
      KeptRowsPosition(products, s, i);
    }
  }

  /** Every row whose index is not in `s` sits in `r` at its own index less
      the number of selected indices below it. */
  ghost predicate EveryUnselectedShifted<T>(products: seq<T>, s: set<int>, r: seq<T>) {
    forall i :: 0 <= i < |products| && i !in s ==>
      0 <= i - CountBelow(s, i) < |r| && r[i - CountBelow(s, i)] == products[i]
  }

  /** Between `i` and `m`, the count of selected indices grows by at most
      the number of indices passed. */
  lemma {:induction false} CountBelowGrowth(s: set<int>, i: nat, m: nat)
    requires i <= m
    ensures CountBelow(s, i) <= CountBelow(s, m) <= CountBelow(s, i) + (m - i)
    decreases m
  {
    if i < m {
      CountBelowGrowth(s, i, m - 1);
    }
  }

  /** An unselected row moves down by exactly the number of selected rows
      before it. */
  lemma {:induction false} KeptRowsPosition<T>(products: seq<T>, s: set<int>, i: nat)
    requires i < |products| && i !in s
    ensures CountBelow(s, i) <= i
    ensures i - CountBelow(s, i) < |KeptRows(products, s)|
    ensures KeptRows(products, s)[i - CountBelow(s, i)] == products[i]
    decreases |products|
  {
    var init := products[..|products| - 1];
    CountBelowGrowth(s, 0, i);
    KeptRowsLength(init, s);
    KeptRowsSnoc(products, s);
    if i < |products| - 1 {
      KeptRowsPosition(init, s, i);
      assert init[i] == products[i];
    }
  }

  lemma {:induction false} KeptRowsLength<T>(products: seq<T>, s: set<int>)
    ensures |KeptRows(products, s)| == |products| - CountBelow(s, |products|)
    decreases |products|
  {
    if |products| > 0 {
      KeptRowsLength(products[..|products| - 1], s);
    }
  }

  lemma {:induction false} KeptRowsSubsequence<T>(products: seq<T>, s: set<int>)
    ensures IsSubsequence(KeptRows(products, s), products)
    decreases |products|
  {
    if |products| > 0 {
      var init := products[..|products| - 1];
      var last := products[|products| - 1];
      var front := KeptRows(init, s);
      KeptRowsSubsequence(init, s);
      assert init + [last] == products;
      SubsequenceSnoc(front, init, last, products);
      if |products| - 1 in s {
        assert KeptRows(products, s) == front;
      } else {
        assert KeptRows(products, s) == front + [last];
      }
    }
  }

  lemma {:induction false} KeptRowsKeepsUnselected<T>(products: seq<T>, s: set<int>, i: nat)
    requires i < |products| && i !in s
    ensures products[i] in KeptRows(products, s)
    decreases |products|
  {
    var init := products[..|products| - 1];
    if i < |products| - 1 {
      KeptRowsKeepsUnselected(init, s, i);
      assert init[i] == products[i];
    }
  }

  /** The set of row indices the selected rows name. */
  function SelectedIndexSet(indices: seq<Option<int>>): (r: set<int>)
    ensures forall k :: 0 <= k < |indices| && indices[k].Some? ==> indices[k].value in r
    ensures forall i :: i in r ==> exists k :: 0 <= k < |indices| && indices[k] == Some(i)
  {
    set k | 0 <= k < |indices| && indices[k].Some? :: indices[k].value
  }

  /** `_deleteSelectedProducts` as evidently intended: every selected row is
      removed and every other row is kept, in order. */
  function DeleteSelectedProducts(products: seq<Product>, selected: seq<SelectedRow>): (r: seq<Product>)
    ensures IsSubsequence(r, products)
    ensures var s := SelectedIndexSet(RowIndices(selected));
            |r| == |products| - CountBelow(s, |products|)
            && (forall i :: 0 <= i < |products| && i !in s ==> products[i] in r)
            && EveryUnselectedShifted(products, s, r)
  {
    var s := SelectedIndexSet(RowIndices(selected));
    KeptRowsMeaning(products, s);
    KeptRows(products, s)
  }

  /** Selecting rows 0 and 1 of three deletes rows 0 and 2 as written
      (the second splice removes what was row 2), where rows 0 and 1 should
      go. */
  lemma DeleteSelectedRemovesWrongRows()
    ensures var ps := [SampleProduct(1), SampleProduct(2), SampleProduct(3)];
            var selected := [SelectedRow(RowPath(0), "Sample"), SelectedRow(RowPath(1), "Sample")];
            && DeleteSelectedAsWritten(ps, selected) == [SampleProduct(2)]
            && DeleteSelectedProducts(ps, selected) == [SampleProduct(3)]
  {
    var ps := [SampleProduct(1), SampleProduct(2), SampleProduct(3)];
    var selected := [SelectedRow(RowPath(0), "Sample"), SelectedRow(RowPath(1), "Sample")];
    RowIndexOfRowPath(0);
    RowIndexOfRowPath(1);
    TwoRowIndices(selected);
    SplicingZeroThenOne(ps[0], ps[1], ps[2]);
    KeepingAllButZeroAndOne(ps[0], ps[1], ps[2]);
  }

  lemma TwoRowIndices(selected: seq<SelectedRow>)
    requires |selected| == 2
    ensures RowIndices(selected) == [RowIndex(selected[0].path), RowIndex(selected[1].path)]
  {
    var r := RowIndices(selected);
    assert |r| == 2 && r[0] == RowIndex(selected[0].path) && r[1] == RowIndex(selected[1].path);
  }

  lemma SplicingZeroThenOne<T>(a: T, b: T, c: T)
    ensures SpliceEach([a, b, c], [Some(0), Some(1)]) == [b]
  {
    var ps := [a, b, c];
    assert ps[..0] + ps[1..] == [b, c];
    var afterFirst := SpliceAt(ps, Some(0));
    assert afterFirst == [b, c];
    assert afterFirst[..1] + afterFirst[2..] == [b];
    var afterSecond := SpliceAt(afterFirst, Some(1));
    assert afterSecond == [b];
    assert SpliceEach(afterSecond, []) == [b];
    assert [Some(1)][1..] == [];
    assert SpliceEach(afterFirst, [Some(1)]) == [b];
    assert [Some(0), Some(1)][1..] == [Some(1)];
  }

  lemma KeepingAllButZeroAndOne<T>(a: T, b: T, c: T)
    ensures SelectedIndexSet([Some(0), Some(1)]) == {0, 1}
    ensures KeptRows([a, b, c], {0, 1}) == [c]
  {
    var indices := [Some(0), Some(1)];
    var s := SelectedIndexSet(indices);
    forall i | i in s
      ensures i in {0, 1}
    {
      var k :| 0 <= k < |indices| && indices[k] == Some(i);
    }
    assert indices[0].value in s && indices[1].value in s;
    assert s == {0, 1};
    var s2: set<int> := {0, 1};
    assert [a, b, c][..2] == [a, b];
    assert [a, b][..1] == [a];
    assert [a][..0] == [];
    assert KeptRows([a], s2) == [];
    assert KeptRows([a, b], s2) == [];
    assert KeptRows([a, b, c], s2) == [c];
  }

  /** One step of `KeptRows`: the last row is kept unless its index is
      selected. */
  lemma KeptRowsSnoc<T>(products: seq<T>, s: set<int>)
    requires |products| > 0
    ensures var init := products[..|products| - 1];
            KeptRows(products, s) == KeptRows(init, s) + (if |products| - 1 in s then [] else [products[|products| - 1]])
  {
  }

  /** Without selected indices from `n` on, the rows from `n` on are all
      kept. */
  lemma {:induction false} KeptRowsPrefix<T>(products: seq<T>, s: set<int>, n: nat)
    requires n <= |products|
    requires forall i :: i in s && 0 <= i < |products| ==> i < n
    ensures KeptRows(products, s) == KeptRows(products[..n], s) + products[n..]
    decreases |products| - n
  {
    if n == |products| {
      assert products[..n] == products;
    } else {
      var init := products[..|products| - 1];
      var last := products[|products| - 1];
      assert |products| - 1 !in s;
      KeptRowsSnoc(products, s);
      KeptRowsPrefix(init, s, n);
      assert init[..n] == products[..n];
      assert init[n..] + [last] == products[n..];
    }
  }

  /** Only membership of the list's own indices matters. */
  lemma {:induction false} KeptRowsRestrict<T>(products: seq<T>, s: set<int>, t: set<int>)
    requires forall i :: 0 <= i < |products| ==> (i in s <==> i in t)
    ensures KeptRows(products, s) == KeptRows(products, t)
    decreases |products|
  {
    if |products| > 0 {
      KeptRowsSnoc(products, s);
      KeptRowsSnoc(products, t);
      KeptRowsRestrict(products[..|products| - 1], s, t);
    }
  }

  /** Removing the highest selected row first and then keeping the rows not
      selected among the others is keeping the rows not selected. */
  lemma KeptRowsDropTop<T>(products: seq<T>, s: set<int>, i0: nat)
    requires i0 < |products| && i0 in s
    requires forall i :: i in s && 0 <= i < |products| ==> i <= i0
    ensures KeptRows(products, s) == KeptRows(products[..i0] + products[i0 + 1..], s - {i0})
  {
    var shorter := products[..i0] + products[i0 + 1..];
    var upTo := products[..i0 + 1];
    var below := products[..i0];
    var above := products[i0 + 1..];
    var s' := s - {i0};
    assert upTo[..i0] == below;
    assert shorter[..i0] == below && shorter[i0..] == above;
    calc {
      KeptRows(products, s);
      { KeptRowsPrefix(products, s, i0 + 1); }
      KeptRows(upTo, s) + above;
      { KeptRowsSnoc(upTo, s); }
      KeptRows(below, s) + above;
      { KeptRowsRestrict(below, s, s'); }
      KeptRows(below, s') + above;
      { KeptRowsPrefix(shorter, s', i0); }
      KeptRows(shorter, s');
    }
  }

  lemma SelectedIndexSetCons(indices: seq<Option<int>>)
    requires |indices| > 0 && indices[0].Some?
    ensures SelectedIndexSet(indices) == {indices[0].value} + SelectedIndexSet(indices[1..])
  {
    var rest := indices[1..];
    forall i | i in SelectedIndexSet(indices)
      ensures i in {indices[0].value} + SelectedIndexSet(rest)
    {
      var k :| 0 <= k < |indices| && indices[k] == Some(i);
      if k > 0 {
        assert rest[k - 1] == indices[k];
      }
    }
    forall i | i in SelectedIndexSet(rest)
      ensures i in SelectedIndexSet(indices)
    {
      var k :| 0 <= k < |rest| && rest[k] == Some(i);
      assert indices[k + 1] == rest[k];
    }
  }

  /** Splicing in strictly decreasing index order removes exactly the
      selected rows: the as-written loop is right when the selection comes
      bottom-up. */
  lemma {:induction false} SpliceDescendingKeepsTheRest<T>(products: seq<T>, indices: seq<Option<int>>)
    requires forall k :: 0 <= k < |indices| ==> indices[k].Some? && 0 <= indices[k].value < |products|
    requires forall j, k :: 0 <= j < k < |indices| ==> indices[j].value > indices[k].value
    ensures SpliceEach(products, indices) == KeptRows(products, SelectedIndexSet(indices))
    decreases |indices|
  {
    if |indices| == 0 {
      KeptRowsNone(products, SelectedIndexSet(indices));
    } else {
      var i0 := indices[0].value;
      var shorter := products[..i0] + products[i0 + 1..];
      DescendingRestFits(products, indices, shorter);
      SpliceDescendingKeepsTheRest(shorter, indices[1..]);
      SpliceDescendingStep(products, indices);
    }
  }

  /** After the first splice of a descending selection, the rest of the
      selection is still descending and in range for the shorter list. */
  lemma DescendingRestFits<T>(products: seq<T>, indices: seq<Option<int>>, shorter: seq<T>)
    requires |indices| > 0 && |shorter| == |products| - 1
    requires forall k :: 0 <= k < |indices| ==> indices[k].Some? && 0 <= indices[k].value < |products|
    requires forall j, k :: 0 <= j < k < |indices| ==> indices[j].value > indices[k].value
    ensures var rest := indices[1..];
            && (forall k :: 0 <= k < |rest| ==> rest[k].Some? && 0 <= rest[k].value < |shorter|)
            && (forall j, k :: 0 <= j < k < |rest| ==> rest[j].value > rest[k].value)
  {
    var rest := indices[1..];
    forall k | 0 <= k < |rest|
      ensures rest[k].Some? && 0 <= rest[k].value < |shorter|
    {
      assert rest[k] == indices[k + 1];
      assert indices[0].value > indices[k + 1].value;
    }
    forall j, k | 0 <= j < k < |rest|
      ensures rest[j].value > rest[k].value
    {
      assert rest[j] == indices[j + 1] && rest[k] == indices[k + 1];
    }
  }

  /** Nothing selected keeps every row. */
  lemma {:induction false} KeptRowsNone<T>(products: seq<T>, s: set<int>)
    requires forall i :: 0 <= i < |products| ==> i !in s
    ensures KeptRows(products, s) == products
    decreases |products|
  {
    if |products| > 0 {
      KeptRowsNone(products[..|products| - 1], s);
      assert products[..|products| - 1] + [products[|products| - 1]] == products;
    }
  }

  /** The first splice of a descending selection removes the highest
      selected row; the rest of the selection then names the same rows of
      the shorter list. */
  lemma SpliceDescendingStep<T>(products: seq<T>, indices: seq<Option<int>>)
    requires |indices| > 0
    requires forall k :: 0 <= k < |indices| ==> indices[k].Some? && 0 <= indices[k].value < |products|
    requires forall j, k :: 0 <= j < k < |indices| ==> indices[j].value > indices[k].value
    requires var i0 := indices[0].value;
             SpliceEach(products[..i0] + products[i0 + 1..], indices[1..])
             == KeptRows(products[..i0] + products[i0 + 1..], SelectedIndexSet(indices[1..]))
    ensures SpliceEach(products, indices) == KeptRows(products, SelectedIndexSet(indices))
  {
    var i0 := indices[0].value;
    var shorter := products[..i0] + products[i0 + 1..];
    var s := SelectedIndexSet(indices);
    var s' := SelectedIndexSet(indices[1..]);
    DescendingRestSet(indices);
    KeptRowsDropTop(products, s, i0);
    calc {
      SpliceEach(products, indices);
      SpliceEach(shorter, indices[1..]);
      KeptRows(shorter, s');
      { assert s - {i0} == s'; }
      KeptRows(shorter, s - {i0});
      KeptRows(products, s);
    }
  }

  /** In a strictly decreasing selection the first index is the highest, and
      the others name the rest of the set. */
  lemma DescendingRestSet(indices: seq<Option<int>>)
    requires |indices| > 0
    requires forall k :: 0 <= k < |indices| ==> indices[k].Some?
    requires forall j, k :: 0 <= j < k < |indices| ==> indices[j].value > indices[k].value
    ensures indices[0].value in SelectedIndexSet(indices)
    ensures forall i :: i in SelectedIndexSet(indices) ==> i <= indices[0].value
    ensures SelectedIndexSet(indices) - {indices[0].value} == SelectedIndexSet(indices[1..])
  {
    var i0 := indices[0].value;
    var rest := indices[1..];
    SelectedIndexSetCons(indices);
    forall i | i in SelectedIndexSet(rest)
      ensures i < i0
    {
      var k :| 0 <= k < |rest| && rest[k] == Some(i);
      assert rest[k] == indices[k + 1];
    }
  }

  /** When the rows are selected from the bottom up, the as-written deletion
      and the intended one agree. */
  lemma DescendingSelectionDeletesSelected(products: seq<Product>, selected: seq<SelectedRow>)
    requires forall k :: 0 <= k < |selected| ==>
               RowIndex(selected[k].path).Some? && 0 <= RowIndex(selected[k].path).value < |products|
    requires forall j, k :: 0 <= j < k < |selected| ==>
               RowIndex(selected[j].path).value > RowIndex(selected[k].path).value
    ensures DeleteSelectedAsWritten(products, selected) == DeleteSelectedProducts(products, selected)
  {
    SpliceDescendingKeepsTheRest(products, RowIndices(selected));
  }

  /** The part of the overview page that deletion touches: the products, the
      rows selected in the table and the `/deleteButton` flag of the `state`
      model, which enables the Delete button. */
  datatype Overview = Overview(products: seq<Product>, selected: seq<SelectedRow>, deleteButton: bool)

  /** `onInit`: the flag starts false and no row is selected. */
  function InitialOverview(products: seq<Product>): (r: Overview)
    ensures r.products == products && r.selected == [] && !r.deleteButton
  {
    Overview(products, [], false)
  }

  /** `onSelectionChangeTable`, fired when the user changes the selection:
      the flag is written from the new selection. */
  function ChangeSelection(o: Overview, selected: seq<SelectedRow>): (r: Overview)
    ensures r.products == o.products && r.selected == selected
    ensures r.deleteButton <==> selected != []
  {
    o.(selected := selected, deleteButton := DeleteButtonEnabled(selected))
  }

  /** `onPressDeleteProducts`: a disabled button delivers no press; an
      enabled one builds the confirmation text from the current selection,
      whatever the flag says. */
  function PressDelete(i18n: UiTypes.I18n, o: Overview): (r: Option<Result<string, ConfirmError>>)
    ensures r.None? <==> !o.deleteButton
    ensures o.deleteButton ==> r == Some(ConfirmationText(i18n, o.selected))
    ensures r.Some? ==> (r.value.Failure? <==> o.selected == [])
  {
    if o.deleteButton then Some(ConfirmationText(i18n, o.selected)) else None
  }

  /** `onPressDialogDelete` as written: `_deleteSelectedProducts` splices the
      rows out and clears the table's selection with `removeSelections`,
      which fires no selection event, so the flag keeps its old value. */
  function ConfirmDeleteAsWritten(o: Overview): (r: Overview)
    ensures r.deleteButton == o.deleteButton
    ensures r.selected == []
    ensures |o.products| - |o.selected| <= |r.products| <= |o.products|
    ensures |o.selected| > 0 ==> r.products == DeleteSelectedAsWritten(o.products, o.selected)
    ensures |o.selected| == 0 ==> r == o
  {
    if |o.selected| > 0 then
      Overview(DeleteSelectedAsWritten(o.products, o.selected), [], o.deleteButton)
    else o
  }

  /** As written, deleting the selected rows leaves the Delete button
      enabled with nothing selected, and pressing it again fails on
      `selectedItems[0]`. */
  lemma StaleFlagAfterDelete(i18n: UiTypes.I18n, products: seq<Product>, rows: seq<SelectedRow>)
    requires rows != []
    ensures var o := ConfirmDeleteAsWritten(ChangeSelection(InitialOverview(products), rows));
            o.deleteButton && o.selected == []
            && PressDelete(i18n, o) == Some(Failure(NoSelectedRow))
  {
  }

  /** `onPressDialogDelete` as evidently intended: the selected rows are
      removed and the flag is cleared together with the selection. */
  function ConfirmDelete(o: Overview): (r: Overview)
    ensures r.selected == [] && !r.deleteButton
    ensures r.products == DeleteSelectedProducts(o.products, o.selected)
  {
    Overview(DeleteSelectedProducts(o.products, o.selected), [], false)
  }

  /** What the user does on the overview page that matters for deletion. */
  datatype OverviewEvent = SelectionChanged(rows: seq<SelectedRow>) | DeleteConfirmed

  function OverviewStep(o: Overview, e: OverviewEvent): Overview {
    match e
    case SelectionChanged(rows) => ChangeSelection(o, rows)
    case DeleteConfirmed => ConfirmDelete(o)
  }

  /** The page after a run of events, with the corrected deletion. */
  function ReplayOverview(products: seq<Product>, events: seq<OverviewEvent>): Overview
    decreases |events|
  {
    if |events| == 0 then InitialOverview(products)
    else OverviewStep(ReplayOverview(products, events[..|events| - 1]), events[|events| - 1])
  }

  /** The flag tells whether a row is selected. */
  predicate FlagFollowsSelection(o: Overview) {
    o.deleteButton <==> o.selected != []
  }

  /** With the corrected deletion, the flag follows the selection after any
      run of events. */
  lemma {:induction false} ReplayKeepsFlagHonest(products: seq<Product>, events: seq<OverviewEvent>)
    ensures FlagFollowsSelection(ReplayOverview(products, events))
    decreases |events|
  {
    if |events| > 0 {
      ReplayKeepsFlagHonest(products, events[..|events| - 1]);
    }
  }

  /** With the corrected deletion, the Delete button can be pressed exactly
      when rows are selected, and a press always builds the confirmation
      text. */
  lemma EnabledButtonBuildsConfirmation(i18n: UiTypes.I18n, products: seq<Product>, events: seq<OverviewEvent>)
    ensures var o := ReplayOverview(products, events);
            (PressDelete(i18n, o).Some? <==> o.selected != [])
            && (PressDelete(i18n, o).Some? ==> PressDelete(i18n, o).value.Success?)
            && (PressDelete(i18n, o).Some? ==> PressDelete(i18n, o).value == ConfirmationText(i18n, o.selected))
  {
    ReplayKeepsFlagHonest(products, events);
  }
}

=== FILE: seq_util.dfy ===
/** Order-preserving selection from a sequence. */
module SeqUtil {

  /** `a` is `b` with some elements left out, the rest in the same order. */
  predicate IsSubsequence<T(==)>(a: seq<T>, b: seq<T>)
    decreases |b|
  {
    if |a| == 0 then true
    else if |b| == 0 then false
    else (a[|a| - 1] == b[|b| - 1] && IsSubsequence(a[..|a| - 1], b[..|b| - 1]))
         || IsSubsequence(a, b[..|b| - 1])
  }

  /** Growing `b` at the end keeps `a` a subsequence of it, and growing both
      by the same element does too. */
  lemma SubsequenceSnoc<T>(a: seq<T>, b: seq<T>, x: T, bx: seq<T>)
    requires IsSubsequence(a, b) && bx == b + [x]
    ensures IsSubsequence(a, bx)
    ensures IsSubsequence(a + [x], bx)
  {
    assert bx[..|b|] == b;
    assert (a + [x])[..|a|] == a;
  }
}

=== FILE: ui_types.dfy ===
/** The framework enumerations and the text bundle the controllers use. */
module UiTypes {

  /** `sap.ui.core.ValueState`. */
  datatype ValueState = None | Error | Warning | Success | Information

  /** The i18n resource bundle: a key is resolved to its text. The base
      controller passes only the key on, so the placeholder arguments some
      callers supply never reach the text. */
  type I18n = string -> string
}

=== FILE: validation.dfy ===
/** Validation of the details form's combo boxes over the messaging
    model's message list, the save gate, and the control id a message
    points back to (ProductDetails.controller.js: `handleChange`,
    `_resetForm`, `onPressCreateProduct`, `onPressItem`). */
module Validation {
  import opened JsValues
  import opened JsStrings
  import opened UiTypes
  import opened SeqUtil
  import opened Products

  /** A message of the messaging model, reduced to the id of the control it
      is about and its text. Every message this page adds is an error. */
  datatype Message = Message(target: string, text: string)

  /** A combo box as `handleChange` sees it. */
  datatype Combo = Combo(id: string, selectedKey: string, value: string, state: ValueState, stateText: string)

  /** The condition `!sSelectedKey && sValue || sValue == ""`. */
  predicate ComboInvalid(c: Combo) {
    (!Truthy(Str(c.selectedKey)) && Truthy(Str(c.value))) || c.value == ""
  }

  /** A combo box is invalid exactly when nothing is selected or its text is
      empty. */
  lemma ComboInvalidIffEmpty(c: Combo)
    ensures ComboInvalid(c) <==> c.selectedKey == "" || c.value == ""
  {
  }

  /** The messages whose target is not `target`, in their order. */
  function WithoutTarget(messages: seq<Message>, target: string): (r: seq<Message>)
    ensures IsSubsequence(r, messages)
    ensures forall k :: 0 <= k < |r| ==> r[k].target != target
    ensures forall m :: m in messages && m.target != target ==> m in r
  {
    if |messages| == 0 then []
    else
      var init := messages[..|messages| - 1];
      var last := messages[|messages| - 1];
      var front := WithoutTarget(init, target);
      assert messages == init + [last];
      if last.target == target then
        assert IsSubsequence(front, messages) by {
          if |front| > 0 { assert messages[..|messages| - 1] == init; }
        }
        front
      else
        var r := front + [last];
        assert r[..|r| - 1] == front;
        r
  }

  /** How many messages are about `target`. */
  function CountFor(messages: seq<Message>, target: string): nat {
    if |messages| == 0 then 0
    else CountFor(messages[..|messages| - 1], target) + (if messages[|messages| - 1].target == target then 1 else 0)
  }

  lemma {:induction false} CountForNonEmpty(messages: seq<Message>)
    requires |messages| > 0
    ensures CountFor(messages, messages[0].target) > 0
    decreases |messages|
  {
    if |messages| > 1 {
      var init := messages[..|messages| - 1];
      assert init[0] == messages[0];
      CountForNonEmpty(init);
    }
  }

  /** Removing one target's messages leaves none for it and the others
      counted as before. */
  lemma {:induction false} CountForWithoutTarget(messages: seq<Message>, target: string, other: string)
    ensures CountFor(WithoutTarget(messages, target), target) == 0
    ensures other != target ==> CountFor(WithoutTarget(messages, target), other) == CountFor(messages, other)
    decreases |messages|
  {
    if |messages| > 0 {
      var init := messages[..|messages| - 1];
      CountForWithoutTarget(init, target, other);
      var front := WithoutTarget(init, target);
      var last := messages[|messages| - 1];
      if last.target != target {
        assert (front + [last])[..|front|] == front;
      }
    }
  }

  lemma {:induction false} WithoutTargetAppend(messages: seq<Message>, m: Message, target: string)
    ensures m.target == target ==> WithoutTarget(messages + [m], target) == WithoutTarget(messages, target)
    ensures m.target != target ==> WithoutTarget(messages + [m], target) == WithoutTarget(messages, target) + [m]
  {
    assert (messages + [m])[..|messages|] == messages;
  }

  lemma {:induction false} WithoutTargetIdempotent(messages: seq<Message>, target: string)
    ensures WithoutTarget(WithoutTarget(messages, target), target) == WithoutTarget(messages, target)
    decreases |messages|
  {
    if |messages| > 0 {
      var init := messages[..|messages| - 1];
      var last := messages[|messages| - 1];
      WithoutTargetIdempotent(init, target);
      if last.target != target {
        WithoutTargetAppend(WithoutTarget(init, target), last, target);
      }
    }
  }

  /** The message list and the combo box after `handleChange`. */
  datatype ChangeResult = ChangeResult(messages: seq<Message>, combo: Combo)

  /** `handleChange`: every message about the combo box is removed; an
      invalid combo box gets one `enterValue` error, the `Error` state and
      the `enterValue` state text, a valid one the `None` state with its
      state text left as it was. Messages about other controls stay, in
      order. */
  function HandleChange(i18n: I18n, messages: seq<Message>, combo: Combo): (r: ChangeResult)
    ensures WithoutTarget(r.messages, combo.id) == WithoutTarget(messages, combo.id)
    ensures CountFor(r.messages, combo.id) == (if ComboInvalid(combo) then 1 else 0)
    ensures ComboInvalid(combo) ==> Message(combo.id, i18n("enterValue")) in r.messages
    ensures r.combo.state == ValueState.Error <==> ComboInvalid(combo)
    ensures !ComboInvalid(combo) ==> r.combo.state == ValueState.None && r.combo.stateText == combo.stateText
    ensures ComboInvalid(combo) ==> r.combo.stateText == i18n("enterValue")
    ensures r.combo.(state := combo.state, stateText := combo.stateText) == combo
  {
    var kept := WithoutTarget(messages, combo.id);
    WithoutTargetIdempotent(messages, combo.id);
    CountForWithoutTarget(messages, combo.id, combo.id);
    if ComboInvalid(combo) then
      var m := Message(combo.id, i18n("enterValue"));
      WithoutTargetAppend(kept, m, combo.id);
      assert (kept + [m])[..|kept|] == kept;
      ChangeResult(kept + [m], combo.(state := ValueState.Error, stateText := i18n("enterValue")))
    else
      ChangeResult(kept, combo.(state := ValueState.None))
  }

  /** A second change event on the same combo box changes nothing. */
  lemma HandleChangeIdempotent(i18n: I18n, messages: seq<Message>, combo: Combo)
    ensures var once := HandleChange(i18n, messages, combo);
            HandleChange(i18n, once.messages, once.combo) == once
  {
    var kept := WithoutTarget(messages, combo.id);
    WithoutTargetIdempotent(messages, combo.id);
    if ComboInvalid(combo) {
      WithoutTargetAppend(kept, Message(combo.id, i18n("enterValue")), combo.id);
    }
  }

  /** Messages about other controls are never touched by a change event. */
  lemma HandleChangeKeepsOtherCounts(i18n: I18n, messages: seq<Message>, combo: Combo, other: string)
    requires other != combo.id
    ensures CountFor(HandleChange(i18n, messages, combo).messages, other) == CountFor(messages, other)
  {
    var r := HandleChange(i18n, messages, combo);
    CountForWithoutTarget(r.messages, combo.id, other);
    CountForWithoutTarget(messages, combo.id, other);
  }

  /** The message list after the given change events, oldest first. */
  function Replay(i18n: I18n, messages: seq<Message>, changes: seq<Combo>): seq<Message> {
    if |changes| == 0 then messages
    else HandleChange(i18n, Replay(i18n, messages, changes[..|changes| - 1]), changes[|changes| - 1]).messages
  }

  /** The combo boxes whose latest change event found them invalid. */
  function Flagged(changes: seq<Combo>): set<string> {
    if |changes| == 0 then {}
    else
      var c := changes[|changes| - 1];
      if ComboInvalid(c) then Flagged(changes[..|changes| - 1]) + {c.id}
      else Flagged(changes[..|changes| - 1]) - {c.id}
  }

  /** Starting from an empty list, each combo box has exactly one message
      when its latest change found it invalid, and none otherwise. */
  lemma {:induction false} ReplayTracksFlagged(i18n: I18n, changes: seq<Combo>, t: string)
    ensures CountFor(Replay(i18n, [], changes), t) == (if t in Flagged(changes) then 1 else 0)
    decreases |changes|
  {
    if |changes| > 0 {
      var init := changes[..|changes| - 1];
      var c := changes[|changes| - 1];
      var prev := Replay(i18n, [], init);
      ReplayTracksFlagged(i18n, init, t);
      assert Replay(i18n, [], changes) == HandleChange(i18n, prev, c).messages;
      assert Flagged(changes) == if ComboInvalid(c) then Flagged(init) + {c.id} else Flagged(init) - {c.id};
      if t != c.id {
        HandleChangeKeepsOtherCounts(i18n, prev, c, t);
      }
    }
  }

  /** The three combo boxes of the details form and the message list. */
  datatype Form = Form(messages: seq<Message>, category: Combo, status: Combo, supplier: Combo)

  /** `_resetForm`: the three combo boxes go back to the `None` state and
      every message is removed. Selections and texts stay. */
  function ResetForm(f: Form): (r: Form)
    ensures r.messages == []
    ensures r.category.state == ValueState.None && r.status.state == ValueState.None && r.supplier.state == ValueState.None
    ensures r.category.(state := f.category.state) == f.category
    ensures r.status.(state := f.status.state) == f.status
    ensures r.supplier.(state := f.supplier.state) == f.supplier
  {
    Form([], f.category.(state := ValueState.None), f.status.(state := ValueState.None),
         f.supplier.(state := ValueState.None))
  }

  /** What pressing "create" does. */
  datatype SaveOutcome = Saved(products: seq<Product>) | ErrorDialog

  /** `onPressCreateProduct`: with no message the edited product is written
      back into the list; with any message the error dialog opens and the
      list stays as it was. */
  function CreateProduct(messages: seq<Message>, products: seq<Product>, p: Product): (r: SaveOutcome)
    ensures r.Saved? <==> messages == []
    ensures r.Saved? ==> r.products == UpsertProduct(products, p)
  {
    if |messages| == 0 then Saved(UpsertProduct(products, p)) else ErrorDialog
  }

  /** A combo box left invalid blocks saving. */
  lemma InvalidComboBlocksSave(i18n: I18n, messages: seq<Message>, combo: Combo, products: seq<Product>, p: Product)
    requires ComboInvalid(combo)
    ensures CreateProduct(HandleChange(i18n, messages, combo).messages, products, p) == ErrorDialog
  {
  }

  /** Right after a reset, saving goes through. */
  lemma ResetFormAllowsSave(f: Form, products: seq<Product>, p: Product)
    ensures CreateProduct(ResetForm(f).messages, products, p) == Saved(UpsertProduct(products, p))
  {
  }

  /** After a reset and any change events, saving goes through exactly when
      no combo box's latest change found it invalid. */
  lemma SaveAfterChangesIffNoneFlagged(i18n: I18n, f: Form, changes: seq<Combo>, products: seq<Product>, p: Product)
    ensures CreateProduct(Replay(i18n, ResetForm(f).messages, changes), products, p).Saved?
            <==> Flagged(changes) == {}
  {
    var ms := Replay(i18n, [], changes);
    if |ms| > 0 {
      CountForNonEmpty(ms);
      ReplayTracksFlagged(i18n, changes, ms[0].target);
    }
    if Flagged(changes) != {} {
      var t :| t in Flagged(changes);
      ReplayTracksFlagged(i18n, changes, t);
    }
  }

  /** `onPressItem`'s reading of a message target: the text after the last
      "--", up to the first "/" after that "--" or to the end. Without any
      "--" the search starts at index -1, so the first character is dropped,
      and a target starting with "/" gives "/". */
  function MessageTargetControlId(target: string): (r: string)
    ensures var i := LastIndexOf(target, "--");
            i >= 0 ==>
              && i + 2 + |r| <= |target| && target[i + 2..i + 2 + |r|] == r
              && (i + 2 + |r| == |target| || target[i + 2 + |r|] == '/')
              && (forall k :: 0 <= k < |r| ==> r[k] != '/')
              && (forall k :: !OccursAt(r, "--", k))
    ensures LastIndexOf(target, "--") == -1 && |target| > 0 && target[0] == '/' ==> r == "/"
    ensures LastIndexOf(target, "--") == -1 && (|target| == 0 || target[0] != '/') ==>
              && (|target| == 0 ==> r == "")
              && (|target| > 0 ==> 1 + |r| <= |target| && target[1..1 + |r|] == r
                                   && (1 + |r| == |target| || target[1 + |r|] == '/')
                                   && forall k :: 0 <= k < |r| ==> r[k] != '/')
  {
    var i := LastIndexOf(target, "--");
    var j := IndexOf(target, "/", i);
    var r := if j != -1 then Substring(target, i + 2, j) else SubstringFrom(target, i + 2);
    TargetIdShape(target, i, j, r);
    r
  }

  lemma TargetIdShape(target: string, i: int, j: int, r: string)
    requires i == LastIndexOf(target, "--") && j == IndexOf(target, "/", i)
    requires r == if j != -1 then Substring(target, i + 2, j) else SubstringFrom(target, i + 2)
    ensures i >= 0 ==>
              && i + 2 + |r| <= |target| && target[i + 2..i + 2 + |r|] == r
              && (i + 2 + |r| == |target| || target[i + 2 + |r|] == '/')
              && (forall k :: 0 <= k < |r| ==> r[k] != '/')
              && (forall k :: !OccursAt(r, "--", k))
    ensures i == -1 && |target| > 0 && target[0] == '/' ==> r == "/"
    ensures i == -1 && (|target| == 0 || target[0] != '/') ==>
              && (|target| == 0 ==> r == "")
              && (|target| > 0 ==> 1 + |r| <= |target| && target[1..1 + |r|] == r
                                   && (1 + |r| == |target| || target[1 + |r|] == '/')
                                   && forall k :: 0 <= k < |r| ==> r[k] != '/')
  {
    if i >= 0 {
      TargetIdAfterDashes(target, i, j, r);
    } else {
      TargetIdWithoutDashes(target, j, r);
    }
  }

  lemma TargetIdAfterDashes(target: string, i: int, j: int, r: string)
    requires i == LastIndexOf(target, "--") && i >= 0 && j == IndexOf(target, "/", i)
    requires r == if j != -1 then Substring(target, i + 2, j) else SubstringFrom(target, i + 2)
    ensures i + 2 + |r| <= |target| && target[i + 2..i + 2 + |r|] == r
    ensures i + 2 + |r| == |target| || target[i + 2 + |r|] == '/'
    ensures forall k :: 0 <= k < |r| ==> r[k] != '/'
    ensures forall k :: !OccursAt(r, "--", k)
  {
    var e := if j != -1 then j else |target|;
    SlashSearchPassesDashes(target, i, j);
    assert r == target[i + 2..e];
    if j != -1 {
      OccursAtOneChar(target, '/', j);
    }
    NoSlashBefore(target, i, j, e, r);
    NoPatternInSlice(target, "--", i + 2, e, r);
  }

  /** A slice of a stretch where `pat` never starts holds no `pat`. */
  lemma NoPatternInSlice(t: string, pat: string, a: int, e: int, r: string)
    requires 0 <= a <= e <= |t| && r == t[a..e]
    requires forall p :: a <= p ==> !OccursAt(t, pat, p)
    ensures forall k :: !OccursAt(r, pat, k)
  {
    forall k | OccursAt(r, pat, k)
      ensures false
    {
      forall m | 0 <= m < |pat|
        ensures t[a + k + m] == pat[m]
      {
        assert r[k..k + |pat|][m] == r[k + m];
      }
      assert t[a + k..a + k + |pat|] == pat;
      assert OccursAt(t, pat, a + k);
    }
  }

  /** The '/' searched for from the last "--" lies after both dashes. */
  lemma SlashSearchPassesDashes(target: string, i: int, j: int)
    requires 0 <= i && OccursAt(target, "--", i) && j == IndexOf(target, "/", i)
    ensures j == -1 || i + 2 <= j
  {
    assert target[i..i + 2] == "--";
    assert target[i] == '-' && target[i + 1] == '-';
    OccursAtOneChar(target, '/', i);
    OccursAtOneChar(target, '/', i + 1);
  }

  /** No '/' between the last "--" and the end of the extracted id. */
  lemma NoSlashBefore(target: string, i: int, j: int, e: int, r: string)
    requires 0 <= i && i + 2 <= e <= |target| && j == IndexOf(target, "/", i)
    requires e == (if j != -1 then j else |target|) && r == target[i + 2..e]
    ensures forall k :: 0 <= k < |r| ==> r[k] != '/'
  {
    forall k | 0 <= k < |r|
      ensures r[k] != '/'
    {
      OccursAtOneChar(target, '/', i + 2 + k);
    }
  }

  lemma TargetIdWithoutDashes(target: string, j: int, r: string)
    requires LastIndexOf(target, "--") == -1 && j == IndexOf(target, "/", -1)
    requires r == if j != -1 then Substring(target, 1, j) else SubstringFrom(target, 1)
    ensures |target| > 0 && target[0] == '/' ==> r == "/"
    ensures |target| == 0 ==> r == ""
    ensures |target| > 0 && target[0] != '/' ==>
              && 1 + |r| <= |target| && target[1..1 + |r|] == r
              && (1 + |r| == |target| || target[1 + |r|] == '/')
              && forall k :: 0 <= k < |r| ==> r[k] != '/'
  {
    if |target| > 0 {
      if target[0] == '/' {
        assert OccursAt(target, "/", 0);
      } else {
        assert !OccursAt(target, "/", 0);
        var e := if j != -1 then j else |target|;
        assert r == target[1..e];
        forall k | 0 <= k < |r|
          ensures r[k] != '/'
        {
          assert !OccursAt(target, "/", 1 + k);
        }
      }
    }
  }

  /** A control id the view prefixes with "--" comes back out of the
      message target, so the popover focuses the control the message is
      about. */
  lemma ControlIdRoundTrip(viewPrefix: string, localId: string)
    requires forall k :: 0 <= k < |localId| ==> localId[k] != '/' && localId[k] != '-'
    ensures MessageTargetControlId(viewPrefix + "--" + localId) == localId
  {
    var s := viewPrefix + "--" + localId;
    var p := |viewPrefix|;
    assert s[p..p + 2] == "--";
    assert OccursAt(s, "--", p);
    forall k | p < k
      ensures !OccursAt(s, "--", k)
    {
      if k + 2 <= |s| {
        assert s[k + 1] == localId[k + 1 - p - 2];
      }
    }
    assert LastIndexOf(s, "--") == p;
    forall k | p <= k <= |s|
      ensures !OccursAt(s, "/", k)
    {
      if k < |s| {
        assert s[k..k + 1] == [s[k]];
        if k >= p + 2 {
          assert s[k] == localId[k - p - 2];
        } else {
          assert s[k] == '-';
        }
      }
    }
    assert IndexOf(s, "/", p) == -1;
    assert s[p + 2..] == localId;
  }
}

=== FILE: whitespace.dfy ===
/** Token-text normalisation in the products overview: every pair of ASCII
    spaces becomes a space followed by a no-break space (U+00A0), so that a
    token keeps its visible width (ProductsOverview.controller.js,
    `replaceDoubleWhitespaceWithUnicodeSpace` and `onDialogOkPress`). */
module Whitespace {
  import opened JsValues

  const Space: char := ' '
  const NoBreakSpace: char := '\U{00A0}'

  /** No two neighbouring characters are both ASCII spaces. */
  predicate NoDoubleSpace(s: string) {
    forall i :: 0 <= i < |s| - 1 ==> !(s[i] == Space && s[i + 1] == Space)
  }

  /** `s.replaceAll("  ", " \u00A0")`: matches are found left to right and
      do not overlap, so a run of three spaces becomes space, no-break space,
      space. */
  function ReplaceDoubleSpaces(s: string): (r: string)
    ensures |r| == |s|
    decreases |s|
  {
    if |s| >= 2 && s[0] == Space && s[1] == Space then
      [Space, NoBreakSpace] + ReplaceDoubleSpaces(s[2..])
    else if |s| == 0 then
      []
    else
      [s[0]] + ReplaceDoubleSpaces(s[1..])
  }

  /** The rewrite only turns ASCII spaces into no-break spaces, and leaves no
      pair of ASCII spaces behind. */
  lemma {:induction false} ReplaceDoubleSpacesShape(s: string)
    ensures var r := ReplaceDoubleSpaces(s);
            && (forall i :: 0 <= i < |s| ==> r[i] == s[i] || (s[i] == Space && r[i] == NoBreakSpace))
            && NoDoubleSpace(r)
    decreases |s|
  {
    var r := ReplaceDoubleSpaces(s);
    if |s| >= 2 && s[0] == Space && s[1] == Space {
      var t := s[2..];
      ReplaceDoubleSpacesShape(t);
      assert r == [Space, NoBreakSpace] + ReplaceDoubleSpaces(t);
      forall i | 2 <= i < |s|
        ensures r[i] == s[i] || (s[i] == Space && r[i] == NoBreakSpace)
      {
        assert r[i] == ReplaceDoubleSpaces(t)[i - 2] && s[i] == t[i - 2];
      }
      forall i | 0 <= i < |r| - 1
        ensures !(r[i] == Space && r[i + 1] == Space)
      {
        if i >= 2 {
          assert r[i] == ReplaceDoubleSpaces(t)[i - 2] && r[i + 1] == ReplaceDoubleSpaces(t)[i - 1];
        }
      }
    } else if |s| > 0 {
      var t := s[1..];
      ReplaceDoubleSpacesShape(t);
      assert r == [s[0]] + ReplaceDoubleSpaces(t);
      forall i | 1 <= i < |s|
        ensures r[i] == s[i] || (s[i] == Space && r[i] == NoBreakSpace)
      {
        assert r[i] == ReplaceDoubleSpaces(t)[i - 1] && s[i] == t[i - 1];
      }
      forall i | 0 <= i < |r| - 1
        ensures !(r[i] == Space && r[i + 1] == Space)
      {
        if i >= 1 {
          assert r[i] == ReplaceDoubleSpaces(t)[i - 1] && r[i + 1] == ReplaceDoubleSpaces(t)[i];
        } else if |t| > 0 {
          assert r[1] == ReplaceDoubleSpaces(t)[0];
          ReplaceDoubleSpacesFirst(t);
        }
      }
    }
  }

  /** The first character is always kept: a leading pair of spaces becomes
      a space followed by a no-break space. */
  lemma ReplaceDoubleSpacesFirst(s: string)
    requires |s| > 0
    ensures ReplaceDoubleSpaces(s)[0] == s[0]
  {
  }

  /** `replaceDoubleWhitespaceWithUnicodeSpace`: a value that is not a
      string is returned as it is; a string is rewritten. */
  function NormaliseTokenText(v: JsValue): (r: JsValue)
    ensures !v.Str? ==> r == v
    ensures v.Str? ==> r.Str? && |r.s| == |v.s| && NoDoubleSpace(r.s)
    ensures v.Str? && NoDoubleSpace(v.s) ==> r == v
  {
    match v
    case Str(s) =>
      ReplaceDoubleSpacesKeepsNormalText(s);
      ReplaceDoubleSpacesShape(s);
      Str(ReplaceDoubleSpaces(s))
    case _ => v
  }

  /** `onDialogOkPress`: every token text chosen in the value-help dialog is
      normalised, in token order. */
  function NormaliseTokenTexts(texts: seq<string>): (r: seq<string>)
    ensures |r| == |texts|
    ensures forall k :: 0 <= k < |texts| ==> r[k] == ReplaceDoubleSpaces(texts[k])
  {
    seq(|texts|, k requires 0 <= k < |texts| => ReplaceDoubleSpaces(texts[k]))
  }

  /** Length of the run of ASCII spaces that ends at index `i` (0 when
      `s[i]` is not a space). */
  function SpaceRun(s: string, i: nat): nat
    requires i < |s|
  {
    if s[i] != Space then 0 else if i == 0 then 1 else 1 + SpaceRun(s, i - 1)
  }

  /** A run that covers every index up to `j` starts at index 0, so
      `s[0]` is a space. */
  lemma {:induction false} FullRunStartsWithSpace(s: string, j: nat)
    requires j < |s| && SpaceRun(s, j) == j + 1
    ensures s[0] == Space
  {
    if j > 0 {
      FullRunStartsWithSpace(s, j - 1);
    }
  }

  /** Dropping the first `d` characters shortens the run ending at `i` only
      when the run reached into the dropped part. */
  lemma {:induction false} SpaceRunOfSuffix(s: string, i: nat, d: nat)
    requires d <= i < |s|
    ensures SpaceRun(s, i) ==
              if d > 0 && SpaceRun(s[d..], i - d) == i - d + 1
              then i - d + 1 + SpaceRun(s, d - 1)
              else SpaceRun(s[d..], i - d)
    decreases i - d
  {
    var t := s[d..];
    assert t[i - d] == s[i];
    if s[i] == Space && i > d {
      SpaceRunOfSuffix(s, i - 1, d);
    }
  }

  /** The spelled-out value the rewrite gives index `i`: an ASCII space at
      an even position of its run becomes a no-break space. */
  function RunParityChar(s: string, i: nat): char
    requires i < |s|
  {
    if s[i] == Space && SpaceRun(s, i) % 2 == 0 then NoBreakSpace else s[i]
  }

  /** Independent description of the rewrite: inside each maximal run of
      ASCII spaces, the spaces at even positions of the run (2nd, 4th, ...)
      become no-break spaces and everything else is kept. */
  lemma {:induction false} ReplaceDoubleSpacesByRunParity(s: string)
    ensures forall i :: 0 <= i < |s| ==> ReplaceDoubleSpaces(s)[i] == RunParityChar(s, i)
    decreases |s|
  {
    if |s| >= 2 && s[0] == Space && s[1] == Space {
      ReplaceDoubleSpacesByRunParity(s[2..]);
      PairStepKeepsParity(s);
    } else if |s| > 0 {
      ReplaceDoubleSpacesByRunParity(s[1..]);
      SingleStepKeepsParity(s);
    }
  }

  lemma PairStepKeepsParity(s: string)
    requires |s| >= 2 && s[0] == Space && s[1] == Space
    requires forall i :: 0 <= i < |s| - 2 ==> ReplaceDoubleSpaces(s[2..])[i] == RunParityChar(s[2..], i)
    ensures forall i :: 0 <= i < |s| ==> ReplaceDoubleSpaces(s)[i] == RunParityChar(s, i)
  {
    var rt := ReplaceDoubleSpaces(s[2..]);
    var rs := ReplaceDoubleSpaces(s);
    assert rs == [Space, NoBreakSpace] + rt;
    forall i | 0 <= i < |s|
      ensures rs[i] == RunParityChar(s, i)
    {
      PairStepAt(s, i, rs, rt);
    }
  }

  /** One index of a string that starts with a pair of spaces, where `rt`
      is the rewrite of the rest. */
  lemma PairStepAt(s: string, i: nat, rs: string, rt: string)
    requires |s| >= 2 && s[0] == Space && s[1] == Space && i < |s|
    requires |rt| == |s| - 2 && rs == [Space, NoBreakSpace] + rt
    requires i >= 2 ==> rt[i - 2] == RunParityChar(s[2..], i - 2)
    ensures rs[i] == RunParityChar(s, i)
  {
    var t := s[2..];
    if i >= 2 {
      PairStepRun(s, i);
      assert t[i - 2] == s[i];
      assert rs[i] == rt[i - 2];
    } else {
      assert SpaceRun(s, 0) == 1;
      assert SpaceRun(s, 1) == 2;
    }
  }

  /** Dropping a leading pair of spaces keeps the parity of every run. */
  lemma PairStepRun(s: string, i: nat)
    requires |s| >= 2 && s[0] == Space && s[1] == Space && 2 <= i < |s|
    ensures SpaceRun(s, i) % 2 == SpaceRun(s[2..], i - 2) % 2
  {
    assert SpaceRun(s, 0) == 1;
    assert SpaceRun(s, 1) == 2;
    SpaceRunOfSuffix(s, i, 2);
  }

  lemma SingleStepKeepsParity(s: string)
    requires |s| > 0 && !(|s| >= 2 && s[0] == Space && s[1] == Space)
    requires forall i :: 0 <= i < |s| - 1 ==> ReplaceDoubleSpaces(s[1..])[i] == RunParityChar(s[1..], i)
    ensures forall i :: 0 <= i < |s| ==> ReplaceDoubleSpaces(s)[i] == RunParityChar(s, i)
  {
    var rt := ReplaceDoubleSpaces(s[1..]);
    var rs := ReplaceDoubleSpaces(s);
    assert rs == [s[0]] + rt;
    forall i | 0 <= i < |s|
      ensures rs[i] == RunParityChar(s, i)
    {
      SingleStepAt(s, i, rs, rt);
    }
  }

  /** One index of a string that does not start with a pair of spaces,
      where `rt` is the rewrite of the rest. */
  lemma SingleStepAt(s: string, i: nat, rs: string, rt: string)
    requires |s| > 0 && !(|s| >= 2 && s[0] == Space && s[1] == Space) && i < |s|
    requires |rt| == |s| - 1 && rs == [s[0]] + rt
    requires i >= 1 ==> rt[i - 1] == RunParityChar(s[1..], i - 1)
    ensures rs[i] == RunParityChar(s, i)
  {
    var t := s[1..];
    if i >= 1 {
      SingleStepRun(s, i);
      assert t[i - 1] == s[i];
      assert rs[i] == rt[i - 1];
    } else {
      assert SpaceRun(s, 0) == (if s[0] == Space then 1 else 0);
    }
  }

  /** Dropping a first character that does not start a pair of spaces
      leaves every later run as long as it was. */
  lemma SingleStepRun(s: string, i: nat)
    requires |s| > 0 && !(|s| >= 2 && s[0] == Space && s[1] == Space) && 1 <= i < |s|
    ensures SpaceRun(s, i) == SpaceRun(s[1..], i - 1)
  {
    var t := s[1..];
    SpaceRunOfSuffix(s, i, 1);
    if SpaceRun(t, i - 1) == i {
      FullRunStartsWithSpace(t, i - 1);
      assert SpaceRun(s, 0) == 0;
    }
  }

  /** Text without a pair of ASCII spaces is left as it is. */
  lemma {:induction false} ReplaceDoubleSpacesKeepsNormalText(s: string)
    ensures NoDoubleSpace(s) ==> ReplaceDoubleSpaces(s) == s
    decreases |s|
  {
    if |s| > 0 && NoDoubleSpace(s) {
      assert NoDoubleSpace(s[1..]) by {
        forall i | 0 <= i < |s[1..]| - 1
          ensures !(s[1..][i] == Space && s[1..][i + 1] == Space)
        {
          assert s[1..][i] == s[i + 1] && s[1..][i + 1] == s[i + 2];
        }
      }
      ReplaceDoubleSpacesKeepsNormalText(s[1..]);
    }
  }

  /** Normalising twice is normalising once. */
  lemma ReplaceDoubleSpacesIdempotent(s: string)
    ensures ReplaceDoubleSpaces(ReplaceDoubleSpaces(s)) == ReplaceDoubleSpaces(s)
  {
    ReplaceDoubleSpacesShape(s);
    ReplaceDoubleSpacesKeepsNormalText(ReplaceDoubleSpaces(s));
  }
}

=== FILE: wrappers.dfy ===
/** Optional values and error-carrying results, used where the JavaScript code
    returns `undefined` or throws. */
module Wrappers {

  /** `None` stands for JavaScript `undefined` returned in place of a value. */
  datatype Option<+T> = None | Some(value: T)

  /** `Failure` stands for an exception the JavaScript code would raise. */
  datatype Result<+T, +E> = Success(value: T) | Failure(error: E)
}
